=== FILE: README.md ===
# Directory service listing: a Dafny model

This project models the listing core of the BrowserPlus Directory service:

- `ListVisitor` is the visitor the filesystem walker calls once per node. It counts each node it is offered and tells the walker to stop once the limit is reached. It filters nodes on their mimetype and notifies the optional callback. It builds either a flat list of file handles or a tree of `{relativeName, handle, children}` maps. In the tree, an intermediate directory that the filter rejected gets a node of its own when one of its descendants is added.
- `Directory::doList` is shared by `list`, `recursiveList` and `recursiveListWithStructure`. It validates `files` and reads the optional `followLinks`, `mimetypes`, `limit` and `callback`, each with a default. A value of the wrong kind in one of these four is ignored, so only `files` can make the call fail. It then configures a visitor, walks every root in order and hands back the visitor's top list.

The model comes in three layers:

- **Specification functions.** The module `Listing` describes the visitor's state as a value, `Builder`. Each visitor operation is a function on that value.
  - The heap-allocated result maps become a node table `nodes`, whose nodes refer to their children by index.
  - The C++ map from a relative path to a `children` list becomes `listMap`, which maps the path to the index of the node that owns the list.
  - The callback's invocations are recorded in `notices`.
- **Imperative code.** The class `Visitor.ListVisitor` keeps the same state in fields and has the source's methods. Each method is proved to leave the object in the state that the `Listing` function computes. This includes `FindList`, the ancestor-creating loop of `addChild`.
  - `Directory.DoList` is the imperative `doList`. It is proved to produce what the function `Directory.DoListSpec` describes.
- **Properties.** The modules `TreeFacts`, `AddChildFacts`, `VisitFacts` and `ForestFacts`, and the lemmas of `Directory`, state what the service promises:
  - the tree invariant and its preservation;
  - that the result is a forest, with every node in exactly one list;
  - where added nodes and intermediate directories go, and their handles;
  - the limit;
  - the flat result;
  - the notifications;
  - the error cases;
  - that stopping the walk early gives the same result as examining every node.
- **Worked example.** The module `Scenarios` works through one call from the unit tests by hand.

Paths are sequences of components, so `Parent` drops the last one. The calls into the file library and the walker are fields of a `Host` value:

- `isDirectory`, `isMimeType`, `pathExists` and `pathFromURL`;
- `visit` and `recursiveVisit`, which give the sequence of `(path, relativePath)` steps the walker would offer for a root.

## Behaviour to note

- `followLinks` defaults to true when the argument is absent (src/service.cpp:311), as the method documentation says (src/service.cpp:206).
- `limit` defaults to `kDefaultLimit`, 1000 (src/service.cpp:36 and :330). The documentation calls it the maximum number of items to examine (src/service.cpp:211).
- The counter goes up on every `visitNode` call before the limit is tested (src/service.cpp:61). So filtered-out nodes count too, and so does the call that answers stop. The intermediate directories created in structured mode are not counted, so a structured result can hold more than `limit` nodes.
- The walker's relative paths start with the root's last component. That component is `test_directory_1` for a root given without a trailing separator (unittest/unittest.rb:223-231), and `.` for a root given with one (unittest/unittest.rb:243-247). The anchor for intermediate directories is the node's path with as many components removed as its relative path has (src/service.cpp:107-112).
  - Without the trailing separator, the anchor is the root's parent, so a created directory's handle is its own path.
  - With it, the anchor lands one level above the root, because `.` counts as a component. A created directory's handle then names a path other than the directory's own, such as `<parent>/.` for the root (unittest/unittest.rb:282) and `<parent>/./test_directory_1` below it (unittest/unittest.rb:295).
  - A kept node's handle is always its own path, so a kept root's handle is the root path itself (unittest/unittest.rb:243-247).
- `listMap` lives as long as the visitor, and its keys are relative paths (src/service.cpp:118-126). A directory that is added registers its own list under its relative path and replaces any earlier entry (src/service.cpp:142-146). So with several roots, a node of a later root whose relative parent matches a directory of an earlier root goes into that earlier root's list only when the later root's own node for that relative path was not added, for instance because the filter rejected it. The model keeps this behaviour.

## Model

| member | source | states |
|---|---|---|
| Listing.Visit | src/service.cpp:58-81 | One call keeps the lists well formed: every `listMap` entry names a node that has a `children` list. |
| Listing.AddChild | src/service.cpp:87-148 | Adding a node keeps every `listMap` entry naming a node with a `children` list, so the later appends through it are defined. |
| Listing.EnsureDir | src/service.cpp:118-132 | After an intermediate directory is ensured, it has a list, and the lists stay well formed. |
| Listing.EnsureDirs | src/service.cpp:113-133 | After the first `n` prefixes of the relative parent are ensured, the `n`-th prefix has a list. |
| Listing.Feed | src/service.cpp:58-63 | The walker's protocol of offering nodes until the first stop keeps the lists well formed. |
| Listing.AddChildOutside | src/service.cpp:87-148 | Adding a node changes only the result: settings, counter and notifications stay as they were. |
| Visitor.ListVisitor.constructor | src/service.cpp:44-47 | A new visitor has no mimetypes, limit 1000, no callback, a zero counter and empty lists. |
| Visitor.ListVisitor.SetMimeTypes | src/service.cpp:83 | Replaces the mimetype filter and nothing else. |
| Visitor.ListVisitor.SetCallback | src/service.cpp:84 | Installs the callback and nothing else. |
| Visitor.ListVisitor.SetLimit | src/service.cpp:85 | Replaces the limit and nothing else. |
| Visitor.ListVisitor.VisitNode | src/service.cpp:58-81 | The fields and the answer after the call are those of `Listing.Visit` on the fields before it. |
| Visitor.ListVisitor.AddChild | src/service.cpp:87-148 | The fields after the call are those of `Listing.AddChild` on the fields before it. |
| Visitor.ListVisitor.FindList | src/service.cpp:100-135 | Creates the missing ancestor lists, in the state `Listing.EnsureDirs` gives. It returns the top list exactly when the relative parent is empty, and otherwise the list registered for the relative parent. |
| Visitor.ListVisitor.Anchor | src/service.cpp:107-112 | Taking the parent once per relative component gives the node's path minus that many trailing components, or nothing when it is shorter. |
| Visitor.ListVisitor.AddDirectory | src/service.cpp:118-132 | The fields after creating an intermediate directory are those of `Listing.EnsureDir`. |
| Visitor.ListVisitor.AppendTo | src/service.cpp:127-131 | Appends the node to the top list or to the owner's `children`, and changes nothing else. |
| Visitor.ListVisitor.AdoptKids | src/service.cpp:150-154 | Returns the top list and leaves an empty one in its place. |
| TreeFacts.EnsureDirFacts | src/service.cpp:118-132 | Ensuring a directory keeps the tree invariant and only grows lists. If it had a list, nothing changes. Otherwise exactly one node is created, with that relative name and handle, and registered under it. |
| TreeFacts.EnsureDirLinked | src/service.cpp:126-131 | A directory created for `t` goes at the end of its parent's list: the top list when the parent of `t` is empty, otherwise the `children` of the node registered under that parent. |
| TreeFacts.EnsureDirsFacts | src/service.cpp:113-133 | Every prefix of the relative parent ends up with a list, and existing lists are kept. Each created node belongs to a prefix that had none, with handle anchor + prefix, and each such prefix got one. Each created node is in its parent's list: the top list at the first level, otherwise the `children` of the node registered under its parent. |
| TreeFacts.AppendNewest | src/service.cpp:147 | Appending the newest node to an existing list keeps the invariant and leaves `listMap` alone. |
| TreeFacts.PlacedFacts | src/service.cpp:139-146 | Registering a new node, with an empty `children` list for a directory, keeps the invariant. |
| AddChildFacts.AddedShape | src/service.cpp:87-148 | Adding a node in structured mode keeps the tree invariant and only grows lists. The invariant covers: keys closed under prefixes, each key owning its node, references inside the table, and children after their parent. |
| AddChildFacts.AddedKept | src/service.cpp:118-146 | Earlier lists stay registered where they were. The one exception is the entry under the node's own relative path when the node is a directory, which the directory's own list replaces; a file leaves that entry as it was. The only new keys are ancestors of the relative path and, for a directory, the path itself. |
| AddChildFacts.AddedAncestors | src/service.cpp:100-147 | Every ancestor gets a list. Each ancestor that had none gets exactly one new node, anchored at the node's path, and the node's own entry is the only other new node. Every new node is in its parent's list: the top list at the first level, otherwise the `children` of the node registered under its relative parent. |
| AddChildFacts.AddedLeaf | src/service.cpp:137-147 | The node is the newest one, with its relative name and handle. It has `children` exactly when it is a directory, and is then registered, and it is last in its parent's list (the top list when the parent is empty). |
| AddChildFacts.Added | src/service.cpp:87-148 | The four facts above together. |
| AddChildFacts.AnchoredHandles | src/service.cpp:107-122 | Each created intermediate directory's handle is the node's path without as many trailing components as `relPath` has, followed by the directory's relative path. |
| AddChildFacts.AncestorsOnce | src/service.cpp:118-132 | Intermediate directories are created only where missing, once each, and under distinct names. |
| AddChildFacts.ParentListReused | src/service.cpp:104-105 | When the parent already has a list, exactly one node is added. |
| VisitFacts.VisitBasics | src/service.cpp:58-98 | Each call raises the counter by one. It answers stop exactly when the counter was already at the limit, and then changes nothing else. It notifies a node that passes the filter when there is a callback. In flat mode it appends the handle of a kept node and leaves the node table and `listMap` alone. |
| VisitFacts.VisitStops | src/service.cpp:60-63 | Stop iff the count before the call reached the limit. A stopping call only moves the counter. |
| VisitFacts.VisitOutside | src/service.cpp:65-79 | Outside the result, a call moves the counter and adds at most that node's notification. |
| VisitFacts.VisitFlat | src/service.cpp:94-98 | In flat mode the top list gains the node's handle exactly when the call is under the limit and the node is kept. The node table and `listMap` never change. |
| VisitFacts.VisitKeepsShape | src/service.cpp:58-81 | A call keeps the tree invariant and only grows lists. |
| VisitFacts.VisitChanges | src/service.cpp:58-98 | A call changes the result iff it is under the limit, the node passes the filter, and both of its paths are non-empty. |
| VisitFacts.CounterAndAnswers | src/service.cpp:60-63 | Over any sequence of calls, the counter rises by their number and the settings never change. Call `i` answers ok iff `visited + i < limit`, so every call after a stop stops too. |
| VisitFacts.StopAbsorbs | src/service.cpp:60-63 | Past the limit, calls only move the counter and all answer stop. |
| VisitFacts.OkCount | src/service.cpp:60-63 | Exactly `min(n, limit - visited)` calls answer ok, and never more than `limit`. |
| VisitFacts.VisitAllKeepsShape | src/service.cpp:58-81 | Any number of calls keep the tree invariant and only grow lists. |
| VisitFacts.FlatResult | src/service.cpp:58-98 | In flat mode the top list grows by the handles of the kept nodes among those under the limit, in order. The node table and `listMap` stay as they were. |
| VisitFacts.Notifications | src/service.cpp:65-76 | With a callback, one notification is issued per filtered node under the limit, in order, with its relative name only in structured mode. Without a callback none are issued. |
| ForestFacts.AppendUnshared | src/service.cpp:127-131 | Appending an id above every existing reference, to the top list or to a `children` list, leaves every id in at most one list, each list increasing. |
| ForestFacts.EnsureDirUnshared | src/service.cpp:118-132 | Ensuring an intermediate directory leaves every node in at most one list. |
| ForestFacts.EnsureDirsUnshared | src/service.cpp:113-133 | Ensuring all ancestors leaves every node in at most one list. |
| ForestFacts.AddedUnshared | src/service.cpp:100-147 | Adding a node in structured mode leaves every node in at most one list. |
| ForestFacts.HandleForest | src/service.cpp:94-98 | A flat-mode handle appended to the top list keeps every node in exactly one list. |
| ForestFacts.AddedForest | src/service.cpp:100-147 | Adding a node in structured mode keeps every node in exactly one list. |
| ForestFacts.VisitForest | src/service.cpp:58-98 | One call keeps every node in exactly one list. |
| ForestFacts.FeedForest | src/service.cpp:58-63 | A walk that stops at the first stop keeps every node in exactly one list. |
| VisitFacts.VisitAllConcat | src/service.cpp:341-348 | Examining two step sequences one after the other is examining their concatenation. |
| VisitFacts.VisitAllEquiv | src/service.cpp:60-63 | States that differ only in a counter that is past the limit answer alike and stay alike. |
| VisitFacts.FeedAgrees | src/service.cpp:60-63 | Stopping the walk at the first stop ends in the same result, notifications and settings as offering every node. |
| VisitFacts.FeedKeepsShape | src/service.cpp:341-348 | A walk keeps the tree invariant and only grows lists. |
| Directory.RootsCorrect | src/service.cpp:290-308 | The roots are accepted iff every `files` element is a path that exists, and then they are its paths in order. Otherwise the first offending element's error is reported: not a path, or not found. |
| Directory.ResolveRoots | src/service.cpp:296-308 | The checking loop returns what `Roots` specifies. |
| Directory.FollowLinksArg | src/service.cpp:310-312 | Links are followed unless `followLinks` is the boolean false. |
| Directory.MimeTypesArg | src/service.cpp:314-327 | A filter is set iff `mimetypes` is a list, and it holds exactly that list's strings. |
| Directory.CollectStrings | src/service.cpp:318-325 | The loop gathers exactly the strings of the list. |
| Directory.SizeT | src/service.cpp:329-332 | The `size_t` conversion keeps values below 2^64 and maps a negative `n` to 2^64 + n. |
| Directory.LimitArg | src/service.cpp:329-332 | The limit is 1000 unless `limit` is an integer, and then it is that integer converted to `size_t`. |
| Directory.ApplySettings | src/service.cpp:314-339 | Configures the visitor's filter, limit and callback as the arguments select. |
| Directory.Start | src/service.cpp:286 | A freshly configured visitor satisfies the tree invariant, with a zero counter and nothing built. |
| Directory.RunRoots | src/service.cpp:341-348 | Walking the roots in order keeps the lists well formed. |
| Directory.Traverse | src/service.cpp:344-346 | Offering a root's nodes until the first stop leaves the visitor in the `Feed` state. |
| Directory.VisitRoots | src/service.cpp:341-348 | Walking each root in order, recursively for a directory in recursive mode, gives the `RunRoots` state. |
| Directory.DoList | src/service.cpp:279-354 | The call's result and notifications are those of `DoListSpec`. |
| Directory.DoListFails | src/service.cpp:290-308 | A call fails iff `files` is missing, is not a list, or holds an element that is not an existing path. A missing `files` gives `FilesMissing`, and a failed call notifies nobody. |
| Directory.ConfiguredRoots | src/service.cpp:296-308 | A successful call walks exactly the paths of `files`, in order. |
| Directory.RunRootsAgrees | src/service.cpp:341-348 | Walking root by root, each walk stopping early, ends where examining every offered node of every root ends, up to a counter past the limit. |
| Directory.SuccessIsVisitAll | src/service.cpp:341-353 | A successful call returns the top list, nodes and notifications of examining every offered node in turn. |
| Directory.FlatListing | src/service.cpp:341-353 | In flat mode, a successful call returns the handles of the kept nodes among the first `limit` offered over all roots, in walk order. So it returns at most `limit` of them, and no nodes. |
| Directory.CallbackNotices | src/service.cpp:334-348 | A successful call notifies the filtered nodes among the first `limit` offered, in order, exactly when a callback was given. |
| Directory.RunRootsKeepsShape | src/service.cpp:341-348 | Walking any number of roots keeps the tree invariant and only grows lists. |
| Directory.RunRootsForest | src/service.cpp:341-348 | Walking any number of roots keeps every node in exactly one list. |
| Directory.ResultLinked | src/service.cpp:350-353 | The returned tree is a forest: references stay inside it, every child comes after its parent, and every node is in exactly one list, the top list or the `children` of one node. Each list holds its entries in creation order. |
| Scenarios.TextPlainListing | unittest/unittest.rb:279-309 | The recursive structured listing filtered on `text/plain` yields the node `.` with handle `tmp/.`. Its children are `./foo1.txt` and the intermediate `./test_directory_1` with handle `tmp/./test_directory_1`, which holds `./test_directory_1/bar1.txt`. |
| Scenarios.ConfigureTest | unittest/unittest.rb:308 | The test's arguments select one root, no link following, the `text/plain` filter, limit 1000 and no callback. |

## Left out

- The filesystem walker is not modelled. Its traversal order, link following and relative-path computation are inputs: the steps `visit` and `recursiveVisit` return.
- `isMimeType`, `isDirectory`, `exists` and `pathFromURL` are not modelled. They are uninterpreted functions of the `Host` value.
- Path normalisation and the UTF-8 string conversion of paths are not modelled. Handles and relative names are kept as component sequences, where the service sends `Path` and `String` values.
- Transaction plumbing is not modelled: completing the transaction, the `success` flag, and the `directoryError` error name and message text. The error is a `DirectoryError` value, and the callback invocations are recorded as `notices`.
- The `boost::filesystem` exceptions the walker may throw are not modelled. Only the argument errors are.
- Heap ownership is not modelled: the maps and lists are a node table with indices, and the destructor is left out.
- `list`, `recursiveList` and `recursiveListWithStructure` are one-line calls of `doList`, here `DoList` with the `recursive` and `flat` flags.
- Listing.Visit: the node counter is unbounded. The `size_t` wrap-around after 2^64 calls is not modelled.
- LimitArg: the argument is converted to `size_t` directly. Any truncation from reading it into the C++ `int` first is not modelled.

=== FILE: directory.dfy ===
/**
 * `Directory::doList`, the body shared by list, recursiveList and
 * recursiveListWithStructure: it validates the arguments, configures a fresh
 * visitor, has the walker offer every root's nodes to it in order, and hands
 * back the visitor's result.
 */
module Directory {
  import opened Wrappers
  import opened Paths
  import opened Listing
  import opened TreeFacts
  import opened VisitFacts
  import opened ForestFacts
  import Visitor

  /** An argument value as the service receives it; `OtherValue` stands for every kind the code never looks for. */
  datatype Value =
    | BoolValue(b: bool)
    | IntegerValue(i: int)
    | StringValue(s: string)
    | PathValue(url: string)
    | ListValue(items: seq<Value>)
    | CallbackValue
    | OtherValue

  /** The named arguments of a call. */
  type Args = map<string, Value>

  /** Why a call fails: `files` absent or not a list, an element of it that is not a path, or a path that does not exist. */
  datatype DirectoryError = FilesMissing | NonPathFile | NotFound(path: Path)

  /** The number of values of the unsigned `size_t` the limit is converted to. */
  const SizeTRange: int := 0x1_0000_0000_0000_0000

  /** The result handed back: the top list and, in structured mode, the nodes it refers to. */
  datatype Files = Files(top: seq<Item>, nodes: seq<Node>)

  /** The settings a call's arguments select. */
  datatype Config = Config(
    roots: seq<Path>,
    followLinks: bool,
    mimeTypes: Option<set<string>>,
    limit: nat,
    hasCallback: bool)

  /** An element of `files` that names an existing path. */
  predicate Resolves(host: Host, v: Value)
  {
    v.PathValue? && host.pathExists(host.pathFromURL(v.url))
  }

  /** The error for an element of `files` that does not resolve. */
  function RootError(host: Host, v: Value): (e: DirectoryError)
  {
    if v.PathValue? then NotFound(host.pathFromURL(v.url)) else NonPathFile
  }

  /** The paths named by `files`, checked in order; the first element that does not resolve fails the call. */
  function Roots(host: Host, files: seq<Value>): (r: Result<seq<Path>, DirectoryError>)
  {
    if files == [] then Success([])
    else if !Resolves(host, files[0]) then Failure(RootError(host, files[0]))
    else match Roots(host, files[1..])
      case Success(rest) => Success([host.pathFromURL(files[0].url)] + rest)
      case Failure(e) => Failure(e)
  }

  /** `prefix` followed by the paths of `r`, or the failure of `r`. */
  function Prepend(prefix: seq<Path>, r: Result<seq<Path>, DirectoryError>): (res: Result<seq<Path>, DirectoryError>)
  {
    match r
    case Success(rest) => Success(prefix + rest)
    case Failure(e) => Failure(e)
  }

  /**
   * `Roots` succeeds exactly when every element resolves, and then gives
   * their paths in order; otherwise it reports the first element that does not.
   */
  lemma {:induction false} RootsCorrect(host: Host, files: seq<Value>)
    ensures Roots(host, files).Success? <==> forall i :: 0 <= i < |files| ==> Resolves(host, files[i])
    ensures Roots(host, files).Success? ==>
      |Roots(host, files).value| == |files| &&
      forall i :: 0 <= i < |files| ==> Roots(host, files).value[i] == host.pathFromURL(files[i].url)
    ensures Roots(host, files).Failure? ==>
      exists j :: 0 <= j < |files| && !Resolves(host, files[j]) && Roots(host, files).error == RootError(host, files[j])
        && forall i :: 0 <= i < j ==> Resolves(host, files[i])
    decreases |files|
  {
    if files != [] {
      RootsCorrect(host, files[1..]);
      if Resolves(host, files[0]) {
        assert forall i :: 1 <= i < |files| ==> files[i] == files[1..][i - 1];
        if Roots(host, files).Failure? {
          var j :| 0 <= j < |files[1..]| && !Resolves(host, files[1..][j]) && Roots(host, files[1..]).error == RootError(host, files[1..][j])
            && forall i :: 0 <= i < j ==> Resolves(host, files[1..][i]);
          assert forall i :: 0 <= i < j + 1 ==> Resolves(host, files[i]);
        }
      }
    }
  }

  /** `followLinks` is true unless given as the boolean false. */
  function FollowLinksArg(args: Args): (r: bool)
    ensures !r <==> "followLinks" in args && args["followLinks"] == BoolValue(false)
  {
    if "followLinks" in args && args["followLinks"].BoolValue? then args["followLinks"].b else true
  }

  /** The strings of `items`; elements of other kinds are skipped. */
  function StringsOf(items: seq<Value>): (r: set<string>)
    ensures forall s :: s in r <==> StringValue(s) in items
  {
    set v | v in items && v.StringValue? :: v.s
  }

  /** The mimetype filter is set only when `mimetypes` is a list; it holds the strings of that list. */
  function MimeTypesArg(args: Args): (r: Option<set<string>>)
    ensures r.Some? <==> "mimetypes" in args && args["mimetypes"].ListValue?
    ensures r.Some? ==> forall s :: s in r.value <==> StringValue(s) in args["mimetypes"].items
  {
    if "mimetypes" in args && args["mimetypes"].ListValue? then Some(StringsOf(args["mimetypes"].items)) else None
  }

  /** The conversion of a signed integer to `size_t`: reduction modulo 2^64. */
  function SizeT(i: int): (r: nat)
    ensures r < SizeTRange
    ensures 0 <= i < SizeTRange ==> r == i
    ensures -SizeTRange <= i < 0 ==> r == SizeTRange + i
  {
    i % SizeTRange
  }

  /** The limit is 1000 unless `limit` is an integer, which is then converted to `size_t`. */
  function LimitArg(args: Args): (r: nat)
    ensures !("limit" in args && args["limit"].IntegerValue?) ==> r == DefaultLimit
    ensures "limit" in args && args["limit"].IntegerValue? ==> r == SizeT(args["limit"].i)
  {
    if "limit" in args && args["limit"].IntegerValue? then SizeT(args["limit"].i) else SizeT(DefaultLimit)
  }

  /** A callback is set exactly when `callback` holds one. */
  predicate CallbackArg(args: Args)
  {
    "callback" in args && args["callback"].CallbackValue?
  }

  /** The settings of a call, or why it fails; only `files` can make it fail. */
  function Configure(host: Host, args: Args): (r: Result<Config, DirectoryError>)
  {
    if "files" !in args || !args["files"].ListValue? then Failure(FilesMissing)
    else match Roots(host, args["files"].items)
      case Failure(e) => Failure(e)
      case Success(roots) =>
        Success(Config(roots, FollowLinksArg(args), MimeTypesArg(args), LimitArg(args), CallbackArg(args)))
  }

  /** The mimetype filter a configuration gives the visitor: none given means the empty set. */
  function FilterOf(cfg: Config): set<string>
  {
    if cfg.mimeTypes.Some? then cfg.mimeTypes.value else {}
  }

  /** The visitor once configured, before any node is offered. */
  function Start(flat: bool, cfg: Config): (b: Builder)
    ensures Wf(b) && b.visited == 0 && b.top == [] && b.notices == []
  {
    Initial(flat).(
      mimeTypes := FilterOf(cfg),
      limit := cfg.limit,
      hasCallback := cfg.hasCallback)
  }

  /** The nodes the walker offers for `root`: the whole tree for a directory in recursive mode, otherwise one level. */
  function Walk(host: Host, recursive: bool, followLinks: bool, root: Path): (r: seq<Step>)
  {
    if recursive && host.isDirectory(root) then host.recursiveVisit(root, followLinks) else host.visit(root, followLinks)
  }

  /** The visitor after the walker has gone over each root in turn. */
  function RunRoots(b: Builder, host: Host, recursive: bool, followLinks: bool, roots: seq<Path>): (r: Builder)
    requires ListsOk(b)
    ensures ListsOk(r)
    decreases |roots|
  {
    if roots == [] then b
    else
      var before := RunRoots(b, host, recursive, followLinks, roots[..|roots| - 1]);
      Feed(before, host, Walk(host, recursive, followLinks, roots[|roots| - 1]))
  }

  /** Every node the walker offers over all the roots, in order. */
  function AllSteps(host: Host, recursive: bool, followLinks: bool, roots: seq<Path>): (r: seq<Step>)
    decreases |roots|
  {
    if roots == [] then []
    else AllSteps(host, recursive, followLinks, roots[..|roots| - 1]) + Walk(host, recursive, followLinks, roots[|roots| - 1])
  }

  /** What a call produces: the result or the error, and the callback notifications issued. */
  function DoListSpec(host: Host, args: Args, recursive: bool, flat: bool): (r: (Result<Files, DirectoryError>, seq<Notice>))
  {
    match Configure(host, args)
    case Failure(e) => (Failure(e), [])
    case Success(cfg) =>
      var b := RunRoots(Start(flat, cfg), host, recursive, cfg.followLinks, cfg.roots);
      (Success(Files(b.top, b.nodes)), b.notices)
  }

  /**
   * The walker over one root: it offers the steps in order and stops right
   * after the visitor answers `Stop`.
   */
  method Traverse(v: Visitor.ListVisitor, host: Host, steps: seq<Step>)
    requires v.Valid()
    modifies v
    ensures v.Valid() && v.State() == Feed(old(v.State()), host, steps)
  {
    ghost var b0 := v.State();
    var i := 0;
    while i < |steps|
      invariant 0 <= i <= |steps|
      invariant v.Valid()
      invariant Feed(b0, host, steps) == Feed(v.State(), host, steps[i..])
    {
      ghost var before := v.State();
      var status := v.VisitNode(host, steps[i].path, steps[i].relPath);
      assert steps[i..][0] == steps[i] && steps[i..][1..] == steps[i + 1..];
      if status == Stop {
        assert Feed(before, host, steps[i..]) == v.State();
        return;
      }
      i := i + 1;
    }
  }

  /** The step of `Roots` over one element that resolves. */
  lemma RootsStep(host: Host, files: seq<Value>, i: nat, paths: seq<Path>)
    requires i < |files| && Resolves(host, files[i])
    requires Roots(host, files) == Prepend(paths, Roots(host, files[i..]))
    ensures Roots(host, files) == Prepend(paths + [host.pathFromURL(files[i].url)], Roots(host, files[i + 1..]))
  {
    assert files[i..][0] == files[i] && files[i..][1..] == files[i + 1..];
    match Roots(host, files[i + 1..])
    case Success(rest) =>
      AppendAssoc(paths, [host.pathFromURL(files[i].url)], rest);
    case Failure(e) =>
  }

  /** Checks the elements of `files` in order, stopping at the first one that is not an existing path. */
  method ResolveRoots(host: Host, files: seq<Value>) returns (r: Result<seq<Path>, DirectoryError>)
    ensures r == Roots(host, files)
  {
    var paths: seq<Path> := [];
    var i := 0;
    assert files[0..] == files;
    assert Prepend([], Roots(host, files)) == Roots(host, files) by {
      if Roots(host, files).Success? {
        assert [] + Roots(host, files).value == Roots(host, files).value;
      }
    }
    while i < |files|
      invariant 0 <= i <= |files|
      invariant Roots(host, files) == Prepend(paths, Roots(host, files[i..]))
    {
      assert files[i..][0] == files[i];
      if !files[i].PathValue? {
        return Failure(NonPathFile);
      }
      var path := host.pathFromURL(files[i].url);
      if !host.pathExists(path) {
        return Failure(NotFound(path));
      }
      RootsStep(host, files, i, paths);
      paths := paths + [path];
      i := i + 1;
    }
    assert paths + [] == paths;
    return Success(paths);
  }

  /** The strings of a list argument, gathered one element at a time. */
  method CollectStrings(l: seq<Value>) returns (mimeTypes: set<string>)
    ensures mimeTypes == StringsOf(l)
  {
    mimeTypes := {};
    var j := 0;
    while j < |l|
      invariant 0 <= j <= |l|
      invariant mimeTypes == StringsOf(l[..j])
    {
      assert l[..j + 1] == l[..j] + [l[j]];
      if l[j].StringValue? {
        mimeTypes := mimeTypes + {l[j].s};
      }
      j := j + 1;
    }
    assert l[..j] == l;
  }

  /** Has the walker go over each root in turn, feeding the same visitor. */
  method VisitRoots(v: Visitor.ListVisitor, host: Host, recursive: bool, followLinks: bool, roots: seq<Path>)
    requires v.Valid()
    modifies v
    ensures v.Valid() && v.State() == RunRoots(old(v.State()), host, recursive, followLinks, roots)
  {
    ghost var start := v.State();
    var k := 0;
    while k < |roots|
      invariant 0 <= k <= |roots|
      invariant v.Valid()
      invariant v.State() == RunRoots(start, host, recursive, followLinks, roots[..k])
    {
      assert roots[..k + 1][..k] == roots[..k];
      if recursive && host.isDirectory(roots[k]) {
        Traverse(v, host, host.recursiveVisit(roots[k], followLinks));
      } else {
        Traverse(v, host, host.visit(roots[k], followLinks));
      }
      k := k + 1;
    }
    assert roots[..k] == roots;
  }

  /** Hands the optional `mimetypes`, `limit` and `callback` arguments to the visitor. */
  method ApplySettings(v: Visitor.ListVisitor, args: Args)
    requires v.Valid()
    modifies v
    ensures v.Valid()
    ensures v.State() == old(v.State()).(
      mimeTypes := if MimeTypesArg(args).Some? then MimeTypesArg(args).value else old(v.mimeTypes),
      limit := LimitArg(args),
      hasCallback := CallbackArg(args) || old(v.hasCallback))
  {
    // mimetypes, optional
    if "mimetypes" in args && args["mimetypes"].ListValue? {
      var mimeTypes := CollectStrings(args["mimetypes"].items);
      v.SetMimeTypes(mimeTypes);
    }

    // limit, optional
    var limit := DefaultLimit as int;
    if "limit" in args && args["limit"].IntegerValue? {
      limit := args["limit"].i;
    }
    v.SetLimit(SizeT(limit));

    // callback, optional
    if "callback" in args && args["callback"].CallbackValue? {
      v.SetCallback();
    }
  }

  /**
   * The call: fails on a missing or malformed `files` argument or a path that
   * does not exist, before any node is visited; otherwise visits every root in
   * order and hands back the visitor's result.
   */
  method DoList(host: Host, args: Args, recursive: bool, flat: bool) returns (result: Result<Files, DirectoryError>, notices: seq<Notice>)
    ensures (result, notices) == DoListSpec(host, args, recursive, flat)
  {
    var v := new Visitor.ListVisitor(flat);

    // files, required; every one must exist
    if "files" !in args || !args["files"].ListValue? {
      return Failure(FilesMissing), [];
    }
    var roots := ResolveRoots(host, args["files"].items);
    if roots.Failure? {
      return Failure(roots.error), [];
    }
    var paths := roots.value;

    // followLinks, optional
    var followLinks := true;
    if "followLinks" in args && args["followLinks"].BoolValue? {
      followLinks := args["followLinks"].b;
    }

    ApplySettings(v, args);

    ghost var cfg := Config(paths, followLinks, MimeTypesArg(args), LimitArg(args), CallbackArg(args));
    assert Configure(host, args) == Success(cfg);
    ghost var start := v.State();
    assert start == Start(flat, cfg);

    // visit every root in order
    VisitRoots(v, host, recursive, followLinks, paths);
    assert v.State() == RunRoots(start, host, recursive, followLinks, paths);

    var kids := v.AdoptKids();
    result := Success(Files(kids, v.nodes));
    notices := v.notices;
  }

  /**
   * The nodes form a forest whose roots are the top list's entries: every
   * reference stays inside the result, every child comes after its parent,
   * and every node is in exactly one list.
   */
  ghost predicate Linked(f: Files)
  {
    && (forall j :: 0 <= j < |f.top| && f.top[j].Entry? ==> f.top[j].id < |f.nodes|)
    && (forall i, j :: 0 <= i < |f.nodes| && 0 <= j < |Kids(f.nodes[i])| ==> i < Kids(f.nodes[i])[j] < |f.nodes|)
    && Forest(f.top, f.nodes)
  }

  /**
   * A call fails exactly when `files` is missing, is not a list, or holds an
   * element that is not an existing path; a failed call notifies nobody.
   */
  lemma DoListFails(host: Host, args: Args, recursive: bool, flat: bool)
    ensures DoListSpec(host, args, recursive, flat).0.Failure? <==>
      !("files" in args && args["files"].ListValue? &&
        forall i :: 0 <= i < |args["files"].items| ==> Resolves(host, args["files"].items[i]))
    ensures DoListSpec(host, args, recursive, flat).0.Failure? ==> DoListSpec(host, args, recursive, flat).1 == []
    ensures !("files" in args && args["files"].ListValue?) ==> DoListSpec(host, args, recursive, flat).0 == Failure(FilesMissing)
  {
    if "files" in args && args["files"].ListValue? {
      RootsCorrect(host, args["files"].items);
    }
  }

  /** The roots of a successful call are the paths of `files`, in order. */
  lemma ConfiguredRoots(host: Host, args: Args)
    requires Configure(host, args).Success?
    ensures "files" in args && args["files"].ListValue?
    ensures var files := args["files"].items; var roots := Configure(host, args).value.roots;
      |roots| == |files| && forall i :: 0 <= i < |files| ==> Resolves(host, files[i]) && roots[i] == host.pathFromURL(files[i].url)
  {
    RootsCorrect(host, args["files"].items);
  }

  /** Going over the roots one walk at a time ends, up to a counter past the limit, where examining every node of every walk does. */
  lemma {:induction false} RunRootsAgrees(b: Builder, host: Host, recursive: bool, followLinks: bool, roots: seq<Path>)
    requires ListsOk(b)
    ensures Equiv(RunRoots(b, host, recursive, followLinks, roots), VisitAll(b, host, AllSteps(host, recursive, followLinks, roots)).0)
    decreases |roots|
  {
    if roots != [] {
      var init := roots[..|roots| - 1];
      var walk := Walk(host, recursive, followLinks, roots[|roots| - 1]);
      var r0 := RunRoots(b, host, recursive, followLinks, init);
      var v0 := VisitAll(b, host, AllSteps(host, recursive, followLinks, init)).0;
      RunRootsAgrees(b, host, recursive, followLinks, init);
      FeedAgrees(r0, host, walk);
      VisitAllEquiv(r0, v0, host, walk);
      VisitAllConcat(b, host, AllSteps(host, recursive, followLinks, init), walk);
      EquivTransitive(Feed(r0, host, walk), VisitAll(r0, host, walk).0, VisitAll(v0, host, walk).0);
    }
  }

  /** The result and the notifications of a successful call are those of examining every offered node in turn. */
  lemma SuccessIsVisitAll(host: Host, args: Args, recursive: bool, flat: bool)
    requires Configure(host, args).Success?
    ensures var cfg := Configure(host, args).value;
      var r := VisitAll(Start(flat, cfg), host, AllSteps(host, recursive, cfg.followLinks, cfg.roots)).0;
      DoListSpec(host, args, recursive, flat) == (Success(Files(r.top, r.nodes)), r.notices)
  {
    var cfg := Configure(host, args).value;
    RunRootsAgrees(Start(flat, cfg), host, recursive, cfg.followLinks, cfg.roots);
  }

  /**
   * In flat mode a successful call gives the handles of the offered nodes that
   * pass the filter, among the first `limit` offered over all roots, in walk
   * order; so there are never more than `limit` of them, and no node table.
   */
  lemma FlatListing(host: Host, args: Args, recursive: bool)
    requires Configure(host, args).Success?
    ensures var cfg := Configure(host, args).value;
      var steps := AllSteps(host, recursive, cfg.followLinks, cfg.roots);
      var res := DoListSpec(host, args, recursive, true).0;
      && res.Success?
      && res.value.top == Matches(host, FilterOf(cfg), steps[..Allowed(Start(true, cfg), |steps|)])
      && |res.value.top| <= cfg.limit
      && res.value.nodes == []
  {
    var cfg := Configure(host, args).value;
    var steps := AllSteps(host, recursive, cfg.followLinks, cfg.roots);
    SuccessIsVisitAll(host, args, recursive, true);
    FlatResult(Start(true, cfg), host, steps);
  }

  /**
   * With a callback, a successful call notifies every offered node that passes
   * the filter among the first `limit`, in walk order, with its relative path
   * in structured mode; without one it notifies nobody.
   */
  lemma CallbackNotices(host: Host, args: Args, recursive: bool, flat: bool)
    requires Configure(host, args).Success?
    ensures var cfg := Configure(host, args).value;
      var steps := AllSteps(host, recursive, cfg.followLinks, cfg.roots);
      DoListSpec(host, args, recursive, flat).1
        == if cfg.hasCallback then NoticesFor(host, flat, FilterOf(cfg), steps[..Allowed(Start(flat, cfg), |steps|)]) else []
  {
    var cfg := Configure(host, args).value;
    var steps := AllSteps(host, recursive, cfg.followLinks, cfg.roots);
    SuccessIsVisitAll(host, args, recursive, flat);
    Notifications(Start(flat, cfg), host, steps);
  }

  /** Going over any number of roots keeps the result well formed and only ever adds to it. */
  lemma {:induction false} RunRootsKeepsShape(b: Builder, host: Host, recursive: bool, followLinks: bool, roots: seq<Path>)
    requires Wf(b)
    ensures Wf(RunRoots(b, host, recursive, followLinks, roots)) && Grows(b, RunRoots(b, host, recursive, followLinks, roots))
    decreases |roots|
  {
    if roots != [] {
      var init := roots[..|roots| - 1];
      var r0 := RunRoots(b, host, recursive, followLinks, init);
      RunRootsKeepsShape(b, host, recursive, followLinks, init);
      FeedKeepsShape(r0, host, Walk(host, recursive, followLinks, roots[|roots| - 1]));
      GrowsTransitive(b, r0, RunRoots(b, host, recursive, followLinks, roots));
    }
  }

  /** Going over any number of roots keeps the result a forest. */
  lemma {:induction false} RunRootsForest(b: Builder, host: Host, recursive: bool, followLinks: bool, roots: seq<Path>)
    requires Wf(b) && Forest(b.top, b.nodes)
    ensures var r := RunRoots(b, host, recursive, followLinks, roots); Forest(r.top, r.nodes)
    decreases |roots|
  {
    if roots != [] {
      var init := roots[..|roots| - 1];
      RunRootsForest(b, host, recursive, followLinks, init);
      RunRootsKeepsShape(b, host, recursive, followLinks, init);
      FeedForest(RunRoots(b, host, recursive, followLinks, init), host, Walk(host, recursive, followLinks, roots[|roots| - 1]));
    }
  }

  /**
   * The result of a successful call is a forest: every reference points
   * inside it, every child follows its parent, and every node is in exactly
   * one list.
   */
  lemma ResultLinked(host: Host, args: Args, recursive: bool, flat: bool)
    requires Configure(host, args).Success?
    ensures DoListSpec(host, args, recursive, flat).0.Success?
    ensures Linked(DoListSpec(host, args, recursive, flat).0.value)
  {
    var cfg := Configure(host, args).value;
    RunRootsKeepsShape(Start(flat, cfg), host, recursive, cfg.followLinks, cfg.roots);
    RunRootsForest(Start(flat, cfg), host, recursive, cfg.followLinks, cfg.roots);
  }
}

=== FILE: forest.dfy ===
/**
 * The result is a forest: apart from the top list, every node appears in
 * exactly one list — the top list or the children of one other node — and
 * each list holds its nodes in the order they were created.
 */
module ForestFacts {
  import opened Wrappers
  import opened Paths
  import opened Listing
  import opened TreeFacts
  import opened AddChildFacts
  import opened VisitFacts

  /** Every reference in the top list or in a children list is below `n`. */
  ghost predicate RefsBelow(top: seq<Item>, nodes: seq<Node>, n: nat)
  {
    && (forall k :: 0 <= k < |top| && top[k].Entry? ==> top[k].id < n)
    && (forall o, j :: 0 <= o < |nodes| && 0 <= j < |Kids(nodes[o])| ==> Kids(nodes[o])[j] < n)
  }

  /**
   * No node is referenced twice: the entries of the top list and of each
   * children list are strictly increasing, and no node is in two lists.
   */
  ghost predicate Unshared(top: seq<Item>, nodes: seq<Node>)
  {
    && (forall j, k :: 0 <= j < k < |top| && top[j].Entry? && top[k].Entry? ==> top[j].id < top[k].id)
    && (forall o, j, k :: 0 <= o < |nodes| && 0 <= j < k < |Kids(nodes[o])| ==> Kids(nodes[o])[j] < Kids(nodes[o])[k])
    && (forall o, o', j, j' :: 0 <= o < o' < |nodes| && 0 <= j < |Kids(nodes[o])| && 0 <= j' < |Kids(nodes[o'])| ==>
          Kids(nodes[o])[j] != Kids(nodes[o'])[j'])
    && (forall o, j, k :: 0 <= o < |nodes| && 0 <= j < |Kids(nodes[o])| && 0 <= k < |top| && top[k].Entry? ==>
          Kids(nodes[o])[j] != top[k].id)
  }

  /** Node `i` is in the top list or in the children of some node. */
  ghost predicate Referenced(top: seq<Item>, nodes: seq<Node>, i: nat)
  {
    Entry(i) in top || exists o :: 0 <= o < |nodes| && i in Kids(nodes[o])
  }

  /** Every node is in exactly one list. */
  ghost predicate Forest(top: seq<Item>, nodes: seq<Node>)
  {
    Unshared(top, nodes) && forall i :: 0 <= i < |nodes| ==> Referenced(top, nodes, i)
  }

  lemma RefsBelowOfWf(b: Builder)
    requires Wf(b)
    ensures RefsBelow(b.top, b.nodes, |b.nodes|)
  {
  }

  /** A node without children at the end of the table references nothing new. */
  lemma SnocUnshared(top: seq<Item>, nodes: seq<Node>, n: Node, bound: nat)
    requires Kids(n) == []
    requires Unshared(top, nodes) && RefsBelow(top, nodes, bound)
    ensures Unshared(top, nodes + [n]) && RefsBelow(top, nodes + [n], bound)
  {
    var r := nodes + [n];
    assert forall o :: 0 <= o < |r| ==> Kids(r[o]) == if o < |nodes| then Kids(nodes[o]) else [];
  }

  /** An id above every reference, appended to the top list, is referenced once. */
  lemma TopUnshared(top: seq<Item>, nodes: seq<Node>, id: nat)
    requires Unshared(top, nodes) && RefsBelow(top, nodes, id)
    ensures Unshared(top + [Entry(id)], nodes)
  {
    var t := top + [Entry(id)];
    assert forall k :: 0 <= k < |t| && t[k].Entry? ==> t[k].id == if k < |top| then top[k].id else id;
  }

  /** An id above every reference, appended to the children of node `owner`, is referenced once. */
  lemma KidUnshared(top: seq<Item>, nodes: seq<Node>, owner: nat, id: nat)
    requires owner < |nodes| && nodes[owner].children.Some?
    requires Unshared(top, nodes) && RefsBelow(top, nodes, id)
    ensures var n := nodes[owner];
      Unshared(top, nodes[owner := n.(children := Some(n.children.value + [id]))])
  {
    var n := nodes[owner];
    var r := nodes[owner := n.(children := Some(n.children.value + [id]))];
    assert Kids(r[owner]) == Kids(n) + [id];
    forall o, j | 0 <= o < |r| && 0 <= j < |Kids(r[o])|
      ensures Kids(r[o])[j] == if o == owner && j == |Kids(n)| then id else Kids(nodes[o])[j]
      ensures Kids(r[o])[j] == id || Kids(r[o])[j] < id
    {
    }
  }

  /** Appending an id above every reference keeps each node in at most one list. */
  lemma AppendUnshared(b: Builder, parentRel: Path, id: nat)
    requires parentRel == [] || NamesList(b, parentRel)
    requires Unshared(b.top, b.nodes) && RefsBelow(b.top, b.nodes, id)
    ensures var r := Append(b, parentRel, id); Unshared(r.top, r.nodes)
  {
    if parentRel == [] {
      TopUnshared(b.top, b.nodes, id);
    } else {
      KidUnshared(b.top, b.nodes, b.listMap[parentRel], id);
    }
  }

  /** Ensuring one intermediate directory keeps each node in at most one list. */
  lemma EnsureDirUnshared(b: Builder, t: Path, full: Path)
    requires Wf(b) && Unshared(b.top, b.nodes) && t != []
    requires Parent(t) == [] || Parent(t) in b.listMap
    ensures var r := EnsureDir(b, t, full); Unshared(r.top, r.nodes)
  {
    if t !in b.listMap {
      var leaf := Node(t, full, Some([]));
      RefsBelowOfWf(b);
      SnocUnshared(b.top, b.nodes, leaf, |b.nodes|);
      assert Parent(t) != t;
      AppendUnshared(Placed(b, leaf), Parent(t), |b.nodes|);
    }
  }

  /** Ensuring the first `n` prefixes of `rel` keeps each node in at most one list. */
  lemma {:induction false} EnsureDirsUnshared(b: Builder, rel: Path, base: Path, n: nat)
    requires Wf(b) && Unshared(b.top, b.nodes) && n <= |rel|
    ensures var r := EnsureDirs(b, rel, base, n); Unshared(r.top, r.nodes)
    decreases n
  {
    if n > 0 {
      EnsureDirsUnshared(b, rel, base, n - 1);
      UnsharedStep(b, rel, base, n);
    }
  }

  lemma UnsharedStep(b: Builder, rel: Path, base: Path, n: nat)
    requires Wf(b) && 0 < n <= |rel|
    requires var r0 := EnsureDirs(b, rel, base, n - 1); Unshared(r0.top, r0.nodes)
    ensures var r := EnsureDirs(b, rel, base, n); Unshared(r.top, r.nodes)
  {
    EnsureDirsWf(b, rel, base, n - 1);
    NextPrefix(b, rel, base, n);
    var r0 := EnsureDirs(b, rel, base, n - 1);
    EnsureDirUnshared(r0, rel[..n], base + rel[..n]);
  }

  /** Once the first `n - 1` prefixes of `rel` are ensured, the parent of the next one has a list. */
  lemma NextPrefix(b: Builder, rel: Path, base: Path, n: nat)
    requires ListsOk(b) && 0 < n <= |rel|
    ensures var r0 := EnsureDirs(b, rel, base, n - 1);
      rel[..n] != [] && (Parent(rel[..n]) == [] || Parent(rel[..n]) in r0.listMap)
  {
    ParentOfPrefix(rel, n);
  }

  /** Adding node `p` in structured mode keeps each node in at most one list. */
  lemma AddedUnshared(b: Builder, host: Host, p: Path, relPath: Path)
    requires Wf(b) && Unshared(b.top, b.nodes) && !b.flat && p != [] && relPath != []
    ensures var r := AddChild(b, host, p, relPath); Unshared(r.top, r.nodes)
  {
    var relParent := Parent(relPath);
    var base := Strip(p, |relPath|);
    var isDir := host.isDirectory(p);
    EnsureDirsUnshared(b, relParent, base, |relParent|);
    AddChildIsAttach(b, host, p, relPath);
    var mid := EnsureDirs(b, relParent, base, |relParent|);
    RefsBelowOfWf(mid);
    SnocUnshared(mid.top, mid.nodes, Leaf(p, relPath, isDir), |mid.nodes|);
    AppendUnshared(Placed(mid, Leaf(p, relPath, isDir)), relParent, |mid.nodes|);
  }

  /** A referenced node stays referenced while lists only grow. */
  lemma ReferencedGrows(b: Builder, r: Builder, i: nat)
    requires Referenced(b.top, b.nodes, i) && Grows(b, r)
    ensures Referenced(r.top, r.nodes, i)
  {
    if Entry(i) in b.top {
      assert b.top == r.top[..|b.top|];
    } else {
      var o :| 0 <= o < |b.nodes| && i in Kids(b.nodes[o]);
      assert NodeGrows(b.nodes[o], r.nodes[o]);
      assert Kids(b.nodes[o]) == Kids(r.nodes[o])[..|Kids(b.nodes[o])|];
      assert i in Kids(r.nodes[o]);
    }
  }

  /** A node in its parent's list is referenced. */
  lemma HookedReferenced(r: Builder, i: nat)
    requires i < |r.nodes| && Hooked(r, i)
    ensures Referenced(r.top, r.nodes, i)
  {
    var up := Parent(r.nodes[i].relativeName);
    if up != [] {
      assert 0 <= r.listMap[up] < |r.nodes| && i in Kids(r.nodes[r.listMap[up]]);
    }
  }

  /** Every node is referenced after a step that only grows lists and hooks every node it adds. */
  lemma ReferencedAfter(b: Builder, r: Builder)
    requires Grows(b, r) && DirsHooked(b, r)
    requires forall i :: 0 <= i < |b.nodes| ==> Referenced(b.top, b.nodes, i)
    ensures forall i :: 0 <= i < |r.nodes| ==> Referenced(r.top, r.nodes, i)
  {
    forall i | 0 <= i < |r.nodes|
      ensures Referenced(r.top, r.nodes, i)
    {
      if i < |b.nodes| {
        ReferencedGrows(b, r, i);
      } else {
        HookedReferenced(r, i);
      }
    }
  }

  /** A handle appended to the top list refers to no node. */
  lemma HandleForest(top: seq<Item>, nodes: seq<Node>, h: Path)
    requires Forest(top, nodes)
    ensures Forest(top + [Handle(h)], nodes)
  {
    var t := top + [Handle(h)];
    assert forall k :: 0 <= k < |top| ==> t[k] == top[k];
    forall i | 0 <= i < |nodes|
      ensures Referenced(t, nodes, i)
    {
      assert Referenced(top, nodes, i);
      if Entry(i) in top {
        var k :| 0 <= k < |top| && top[k] == Entry(i);
        assert t[k] == Entry(i);
      } else {
        var o :| 0 <= o < |nodes| && i in Kids(nodes[o]);
      }
    }
  }

  /** Adding node `p` in structured mode keeps the result a forest. */
  lemma AddedForest(b: Builder, host: Host, p: Path, relPath: Path)
    requires Wf(b) && Forest(b.top, b.nodes) && !b.flat && p != [] && relPath != []
    ensures var r := AddChild(b, host, p, relPath); Forest(r.top, r.nodes)
  {
    AddedUnshared(b, host, p, relPath);
    AddedShape(b, host, p, relPath);
    AddedAncestors(b, host, p, relPath);
    ReferencedAfter(b, AddChild(b, host, p, relPath));
  }

  /** One call of the visitor keeps the result a forest. */
  lemma VisitForest(b: Builder, host: Host, p: Path, relPath: Path)
    requires Wf(b) && Forest(b.top, b.nodes)
    ensures var r := Visit(b, host, p, relPath).0; Forest(r.top, r.nodes)
  {
    if b.visited < b.limit && host.isMimeType(p, b.mimeTypes) && p != [] && relPath != [] {
      var notified := Notified(Counted(b), p, relPath);
      assert notified.top == b.top && notified.nodes == b.nodes && Wf(notified);
      if b.flat {
        HandleForest(b.top, b.nodes, p);
      } else {
        AddedForest(notified, host, p, relPath);
      }
    } else {
      var r := Visit(b, host, p, relPath).0;
      assert r.top == b.top && r.nodes == b.nodes;
    }
  }

  /** Feeding the walker's nodes keeps the result a forest. */
  lemma {:induction false} FeedForest(b: Builder, host: Host, steps: seq<Step>)
    requires Wf(b) && Forest(b.top, b.nodes)
    ensures var r := Feed(b, host, steps); Forest(r.top, r.nodes)
    decreases |steps|
  {
    if steps != [] {
      var (b1, s) := Visit(b, host, steps[0].path, steps[0].relPath);
      VisitForest(b, host, steps[0].path, steps[0].relPath);
      if s != Stop {
        VisitKeepsShape(b, host, steps[0].path, steps[0].relPath);
        FeedForest(b1, host, steps[1..]);
      }
    }
  }
}

=== FILE: listing.dfy ===
/**
 * The list visitor of the Directory service as values and functions.
 *
 * A `Builder` is the whole state of one visitor: its settings, the number of
 * nodes it has examined, the callback notifications it has issued and the
 * result it has built so far.  The result is either a flat list of handles or
 * a forest of nodes; nodes live in a table (`nodes`) and refer to each other
 * by index, and `listMap` maps a relative path to the node whose `children`
 * list collects the entries below that path.
 */
module Listing {
  import opened Wrappers
  import opened Paths

  /** The limit a visitor starts with. */
  const DefaultLimit: nat := 1000

  /** One node offered by the walker: its full path and its path relative to the walked root. */
  datatype Step = Step(path: Path, relPath: Path)

  /**
   * The filesystem and library calls the service makes, given as functions:
   * `visit` and `recursiveVisit` give the nodes the walker would offer for a
   * root, in order, when `followLinks` is the boolean argument.
   */
  datatype Host = Host(
    isDirectory: Path -> bool,
    isMimeType: (Path, set<string>) -> bool,
    pathExists: Path -> bool,
    pathFromURL: string -> Path,
    visit: (Path, bool) -> seq<Step>,
    recursiveVisit: (Path, bool) -> seq<Step>)

  /** What visiting one node tells the walker: go on, or stop the traversal. */
  datatype Status = Ok | Stop

  /** An element of a result list: a bare handle (flat mode) or a node of the table (structured mode). */
  datatype Item = Handle(path: Path) | Entry(id: nat)

  /** A `{relativeName, handle, children}` map; `children` is present only for directories. */
  datatype Node = Node(relativeName: Path, handle: Path, children: Option<seq<nat>>)

  /** The argument of one callback invocation; `relativeName` is given only in structured mode. */
  datatype Notice = Notice(handle: Path, relativeName: Option<Path>)

  datatype Builder = Builder(
    flat: bool,
    mimeTypes: set<string>,
    limit: nat,
    hasCallback: bool,
    visited: nat,
    notices: seq<Notice>,
    top: seq<Item>,
    nodes: seq<Node>,
    listMap: map<Path, nat>)

  /** A freshly constructed visitor. */
  function Initial(flat: bool): (b: Builder)
  {
    Builder(flat, {}, DefaultLimit, false, 0, [], [], [], map[])
  }

  /** The state with the result taken out: what adding entries leaves alone. */
  function Outside(b: Builder): (r: Builder)
  {
    b.(top := [], nodes := [], listMap := map[])
  }

  /** `t` names a children list: the node it maps to exists and has `children`. */
  ghost predicate NamesList(b: Builder, t: Path)
  {
    t in b.listMap && b.listMap[t] < |b.nodes| && b.nodes[b.listMap[t]].children.Some?
  }

  /** Every entry of `listMap` names a children list, so appending through it is safe. */
  ghost predicate ListsOk(b: Builder)
  {
    forall t :: t in b.listMap ==> NamesList(b, t)
  }

  /** Appends node `id` to the list of `parentRel`, or to the top list when `parentRel` is empty. */
  function Append(b: Builder, parentRel: Path, id: nat): (r: Builder)
    requires parentRel == [] || NamesList(b, parentRel)
  {
    if parentRel == [] then b.(top := b.top + [Entry(id)])
    else
      var owner := b.listMap[parentRel];
      var n := b.nodes[owner];
      b.(nodes := b.nodes[owner := n.(children := Some(n.children.value + [id]))])
  }

  /**
   * Puts node `n` at the end of the table; a node with a `children` list is
   * registered under its relative name, replacing any earlier registration.
   */
  function Placed(b: Builder, n: Node): (r: Builder)
  {
    b.(nodes := b.nodes + [n],
       listMap := if n.children.Some? then b.listMap[n.relativeName := |b.nodes|] else b.listMap)
  }

  /**
   * Makes sure the intermediate directory `t` has a list: when it has none, a
   * node with handle `full` and an empty `children` list is created and
   * appended to the list of its parent.
   */
  function EnsureDir(b: Builder, t: Path, full: Path): (r: Builder)
    requires ListsOk(b) && t != []
    requires Parent(t) == [] || Parent(t) in b.listMap
    ensures ListsOk(r) && t in r.listMap
  {
    if t in b.listMap then b
    else
      PlacedKeepsLists(b, Node(t, full, Some([])), Parent(t));
      AppendKeepsLists(Placed(b, Node(t, full, Some([]))), Parent(t), |b.nodes|);
      Append(Placed(b, Node(t, full, Some([]))), Parent(t), |b.nodes|)
  }

  /** Putting a node in the table keeps every list, and `above`'s, when `above` is not the node's own name. */
  lemma PlacedKeepsLists(b: Builder, n: Node, above: Path)
    requires ListsOk(b)
    requires above != n.relativeName
    ensures ListsOk(Placed(b, n))
    ensures above in b.listMap ==> above in Placed(b, n).listMap && Placed(b, n).listMap[above] == b.listMap[above]
  {
    var r := Placed(b, n);
    forall t | t in r.listMap
      ensures NamesList(r, t)
    {
      if t != n.relativeName {
        assert r.nodes[b.listMap[t]] == b.nodes[b.listMap[t]];
      }
    }
  }

  /** Appending to a list keeps every list. */
  lemma AppendKeepsLists(b: Builder, parentRel: Path, id: nat)
    requires ListsOk(b)
    requires parentRel == [] || NamesList(b, parentRel)
    ensures ListsOk(Append(b, parentRel, id))
  {
  }

  /** Ensures the lists of the first `n` prefixes of `rel`, shortest first; the prefix `rel[..k]` gets handle `base + rel[..k]`. */
  function EnsureDirs(b: Builder, rel: Path, base: Path, n: nat): (r: Builder)
    requires ListsOk(b) && n <= |rel|
    ensures ListsOk(r)
    ensures 0 < n ==> rel[..n] in r.listMap
    decreases n
  {
    if n == 0 then b
    else
      var r0 := EnsureDirs(b, rel, base, n - 1);
      ParentOfPrefix(rel, n);
      EnsureDir(r0, rel[..n], base + rel[..n])
  }

  /** The node for `p`: with an empty `children` list exactly when it is a directory. */
  function Leaf(p: Path, relPath: Path, isDir: bool): (n: Node)
  {
    Node(relPath, p, if isDir then Some([]) else None)
  }

  /** The entry for the node `p` with relative path `relPath`, added to the result. */
  function AddChild(b: Builder, host: Host, p: Path, relPath: Path): (r: Builder)
    requires ListsOk(b)
    ensures ListsOk(r)
  {
    if p == [] || relPath == [] then b
    else if b.flat then b.(top := b.top + [Handle(p)])
    else
      var relParent := Parent(relPath);
      var b1 := EnsureDirs(b, relParent, Strip(p, |relPath|), |relParent|);
      assert relParent == [] || relParent == relParent[..|relParent|];
      var isDir := host.isDirectory(p);
      var leaf := Leaf(p, relPath, isDir);
      PlacedKeepsLists(b1, leaf, relParent);
      AppendKeepsLists(Placed(b1, leaf), relParent, |b1.nodes|);
      Append(Placed(b1, leaf), relParent, |b1.nodes|)
  }

  /** Adding the lists of intermediate directories leaves everything outside the result alone. */
  lemma {:induction false} EnsureDirsOutside(b: Builder, rel: Path, base: Path, n: nat)
    requires ListsOk(b) && n <= |rel|
    ensures Outside(EnsureDirs(b, rel, base, n)) == Outside(b)
    decreases n
  {
    if n > 0 {
      EnsureDirsOutside(b, rel, base, n - 1);
      var r0 := EnsureDirs(b, rel, base, n - 1);
      ParentOfPrefix(rel, n);
      EnsureDirOutside(r0, rel[..n], base + rel[..n]);
    }
  }

  lemma EnsureDirOutside(b: Builder, t: Path, full: Path)
    requires ListsOk(b) && t != []
    requires Parent(t) == [] || Parent(t) in b.listMap
    ensures Outside(EnsureDir(b, t, full)) == Outside(b)
  {
    if t !in b.listMap {
      var b1 := Placed(b, Node(t, full, Some([])));
      assert Outside(b1) == Outside(b);
      assert Outside(Append(b1, Parent(t), |b.nodes|)) == Outside(b1);
    }
  }

  /** Adding a node leaves everything outside the result alone. */
  lemma AddChildOutside(b: Builder, host: Host, p: Path, relPath: Path)
    requires ListsOk(b)
    ensures Outside(AddChild(b, host, p, relPath)) == Outside(b)
  {
    if p != [] && relPath != [] && !b.flat {
      var relParent := Parent(relPath);
      EnsureDirsOutside(b, relParent, Strip(p, |relPath|), |relParent|);
    }
  }

  /** The state with one more node examined. */
  function Counted(b: Builder): (r: Builder)
  {
    b.(visited := b.visited + 1)
  }

  /** The state after the callback, when there is one, is told about node `p`. */
  function Notified(b: Builder, p: Path, relPath: Path): (r: Builder)
  {
    if b.hasCallback then b.(notices := b.notices + [Notice(p, if b.flat then None else Some(relPath))])
    else b
  }

  /** One call of the visitor on node `p`: count it, stop past the limit, otherwise filter and add. */
  function Visit(b: Builder, host: Host, p: Path, relPath: Path): (r: (Builder, Status))
    requires ListsOk(b)
    ensures ListsOk(r.0)
  {
    if b.visited >= b.limit then (Counted(b), Stop)
    else if host.isMimeType(p, b.mimeTypes) then (AddChild(Notified(Counted(b), p, relPath), host, p, relPath), Ok)
    else (Counted(b), Ok)
  }

  /** Offers every step to the visitor in order, whatever it answers; gives the final state and the answers. */
  function VisitAll(b: Builder, host: Host, steps: seq<Step>): (r: (Builder, seq<Status>))
    requires ListsOk(b)
    ensures ListsOk(r.0) && |r.1| == |steps|
    decreases |steps|
  {
    if steps == [] then (b, [])
    else
      var (b1, s) := Visit(b, host, steps[0].path, steps[0].relPath);
      var (b2, ss) := VisitAll(b1, host, steps[1..]);
      (b2, [s] + ss)
  }

  /** The walker's protocol: offer the steps in order and stop right after the first `Stop`. */
  function Feed(b: Builder, host: Host, steps: seq<Step>): (r: Builder)
    requires ListsOk(b)
    ensures ListsOk(r)
    decreases |steps|
  {
    if steps == [] then b
    else
      var (b1, s) := Visit(b, host, steps[0].path, steps[0].relPath);
      if s == Stop then b1 else Feed(b1, host, steps[1..])
  }
}

=== FILE: paths.dfy ===
/**
 * Filesystem paths as sequences of components, with the two operations the
 * result builder uses: the parent of a path (drop the last component) and
 * appending a component (sequence concatenation).
 */
module Paths {

  type Path = seq<string>

  /** A path's parent: the path without its last component; the empty path is its own parent. */
  function Parent(p: Path): (r: Path)
    ensures p == [] ==> r == []
    ensures p != [] ==> |r| == |p| - 1 && p == r + [p[|p| - 1]]
  {
    if p == [] then [] else p[..|p| - 1]
  }

  /** The path reached by taking the parent `n` times. */
  function Strip(p: Path, n: nat): (r: Path)
    ensures |r| == if n <= |p| then |p| - n else 0
    ensures r == p[..|r|]
    decreases n
  {
    if n == 0 then p else Strip(Parent(p), n - 1)
  }

  /** The parent of a non-empty prefix is the prefix one component shorter. */
  lemma ParentOfPrefix(s: Path, n: nat)
    requires 0 < n <= |s|
    ensures Parent(s[..n]) == s[..n - 1]
  {
  }

  /** Extending a prefix by the next component gives the next prefix. */
  lemma PrefixStep(s: Path, k: nat)
    requires k < |s|
    ensures s[..k] + [s[k]] == s[..k + 1]
  {
  }

  lemma AppendAssoc<T>(x: seq<T>, y: seq<T>, z: seq<T>)
    ensures (x + y) + z == x + (y + z)
  {
  }
}

=== FILE: scenarios.dfy ===
/**
 * A recursive structured listing worked through by hand: one root holding a
 * text file and a sub-directory with one text file, filtered on
 * `text/plain`.  The sub-directory is rejected by the filter, so its node is
 * created as an intermediate directory when its file is added, with a handle
 * anchored at the root's parent.
 */
module Scenarios {
  import opened Wrappers
  import opened Paths
  import opened Listing
  import opened Directory

  const Root: Path := ["tmp", "test_directory"]
  const Foo: Path := ["tmp", "test_directory", "foo1.txt"]
  const Sub: Path := ["tmp", "test_directory", "test_directory_1"]
  const Bar: Path := ["tmp", "test_directory", "test_directory_1", "bar1.txt"]

  /** The walk of `Root`: every node with its path relative to the root, which starts with `.`. */
  const Walked: seq<Step> := [
    Step(Root, ["."]),
    Step(Foo, [".", "foo1.txt"]),
    Step(Sub, [".", "test_directory_1"]),
    Step(Bar, [".", "test_directory_1", "bar1.txt"])]

  /** A filesystem where only `Sub` and `Root` are directories, and only they fail the filter. */
  function TestHost(): Host
  {
    Host(
      (p: Path) => p == Sub || p == Root,
      (p: Path, mt: set<string>) => p != Sub && p != Root,
      (p: Path) => true,
      (url: string) => Root,
      (p: Path, follow: bool) => [],
      (p: Path, follow: bool) => if p == Root then Walked else [])
  }

  /** `files` holding the root, `followLinks` false, and the filter `text/plain`. */
  function TestArgs(): Args
  {
    map["files" := ListValue([PathValue("tmp/test_directory")]),
        "followLinks" := BoolValue(false),
        "mimetypes" := ListValue([StringValue("text/plain")])]
  }

  /** The configuration `TestArgs` selects. */
  function TestConfig(): Config
  {
    Config([Root], false, Some({"text/plain"}), DefaultLimit, false)
  }

  lemma ConfigureTest()
    ensures Configure(TestHost(), TestArgs()) == Success(TestConfig())
  {
    var host := TestHost();
    var files := TestArgs()["files"].items;
    assert files == [PathValue("tmp/test_directory")];
    assert host.pathFromURL("tmp/test_directory") == Root;
    assert host.pathExists(Root);
    assert Resolves(host, files[0]);
    assert files[1..] == [];
    assert Roots(host, files[1..]) == Success([]);
    assert [Root] + [] == [Root];
    assert Roots(host, files) == Success([Root]);
    assert MimeTypesArg(TestArgs()) == Some({"text/plain"}) by {
      assert StringsOf([StringValue("text/plain")]) == {"text/plain"};
    }
  }

  /** The root itself comes first, as `.`, and is rejected by the filter. */
  lemma VisitRoot()
    ensures Visit(Start(false, TestConfig()), TestHost(), Root, ["."]) == (Start(false, TestConfig()).(visited := 1), Ok)
  {
  }

  /** The state after the first file: the anchored node `.` and the file below it. */
  function AfterFoo(): Builder
  {
    Start(false, TestConfig()).(
      visited := 2,
      top := [Entry(0)],
      nodes := [Node(["."], ["tmp", "."], Some([1])), Node([".", "foo1.txt"], Foo, None)],
      listMap := map[["."] := 0])
  }

  /** Adding the node `.`, the ancestor of the first file. */
  lemma AnchorDot(c: Builder)
    requires c == Start(false, TestConfig()).(visited := 2)
    ensures EnsureDirs(c, ["."], ["tmp"], 1)
      == c.(top := [Entry(0)], nodes := [Node(["."], ["tmp", "."], Some([]))], listMap := map[["."] := 0])
  {
    assert ["."][..1] == ["."];
    assert ["tmp"] + ["."] == ["tmp", "."];
    assert Parent(["."]) == [];
  }

  lemma VisitFoo()
    ensures Visit(Start(false, TestConfig()).(visited := 1), TestHost(), Foo, [".", "foo1.txt"]) == (AfterFoo(), Ok)
  {
    var c := Start(false, TestConfig()).(visited := 2);
    assert Strip(Foo, 2) == ["tmp"];
    assert Parent([".", "foo1.txt"]) == ["."];
    AnchorDot(c);
    var b1 := EnsureDirs(c, ["."], ["tmp"], 1);
    var leaf := Node([".", "foo1.txt"], Foo, None);
    assert Placed(b1, leaf) == b1.(nodes := b1.nodes + [leaf]);
    assert AddChild(c, TestHost(), Foo, [".", "foo1.txt"]) == Append(Placed(b1, leaf), ["."], 1);
    var b2 := Placed(b1, leaf);
    assert b2.listMap == map[["."] := 0] && b2.listMap[["."]] == 0;
    assert b2.nodes[0].children.value + [1] == [1];
    assert b2.nodes[0 := b2.nodes[0].(children := Some([1]))] == AfterFoo().nodes;
    assert Append(b2, ["."], 1) == AfterFoo();
    assert TestHost().isMimeType(Foo, {"text/plain"});
    assert Notified(Counted(Start(false, TestConfig()).(visited := 1)), Foo, [".", "foo1.txt"]) == c;
  }

  lemma VisitSub()
    ensures Visit(AfterFoo(), TestHost(), Sub, [".", "test_directory_1"]) == (AfterFoo().(visited := 3), Ok)
  {
  }

  /** The state after the second file: the intermediate directory and the file below it are added. */
  function AfterBar(): Builder
  {
    AfterFoo().(
      visited := 4,
      nodes := [Node(["."], ["tmp", "."], Some([1, 2])), Node([".", "foo1.txt"], Foo, None),
                Node([".", "test_directory_1"], ["tmp", ".", "test_directory_1"], Some([3])),
                Node([".", "test_directory_1", "bar1.txt"], Bar, None)],
      listMap := map[["."] := 0, [".", "test_directory_1"] := 2])
  }

  /** The state once `./test_directory_1` exists, before the second file is put in the table. */
  function WithSub(): Builder
  {
    AfterFoo().(
      visited := 4,
      nodes := [Node(["."], ["tmp", "."], Some([1, 2])), Node([".", "foo1.txt"], Foo, None),
                Node([".", "test_directory_1"], ["tmp", ".", "test_directory_1"], Some([]))],
      listMap := map[["."] := 0, [".", "test_directory_1"] := 2])
  }

  /** The intermediate directory `./test_directory_1`, whose own node was not kept, added below `.`. */
  lemma IntermediateSub(c: Builder)
    requires c == AfterFoo().(visited := 4)
    ensures EnsureDirs(c, [".", "test_directory_1"], ["tmp"], 2) == WithSub()
  {
    var rel: Path := [".", "test_directory_1"];
    assert rel[..1] == ["."] && rel[..2] == rel;
    assert EnsureDirs(c, rel, ["tmp"], 1) == c;
    assert ["tmp"] + rel == ["tmp", ".", "test_directory_1"];
    assert Parent(rel) == ["."];
    var n := Node(rel, ["tmp", ".", "test_directory_1"], Some([]));
    var c1 := Placed(c, n);
    assert c1.listMap == map[["."] := 0, [".", "test_directory_1"] := 2];
    assert c1.nodes[0].children.value + [2] == [1, 2];
  }

  /** The second file goes into the list of `./test_directory_1`. */
  lemma BarIntoSub()
    ensures Append(Placed(WithSub(), Node([".", "test_directory_1", "bar1.txt"], Bar, None)), [".", "test_directory_1"], 3)
      == AfterBar()
  {
    var b2 := Placed(WithSub(), Node([".", "test_directory_1", "bar1.txt"], Bar, None));
    assert b2.listMap == WithSub().listMap && b2.listMap[[".", "test_directory_1"]] == 2;
    assert b2.nodes[2].children.value + [3] == [3];
    assert b2.nodes[2 := b2.nodes[2].(children := Some([3]))] == AfterBar().nodes;
  }

  /** Adding the second file: its ancestor `./test_directory_1` is created, then the file goes into its list. */
  lemma AddBar(c: Builder)
    requires c == AfterFoo().(visited := 4)
    ensures AddChild(c, TestHost(), Bar, [".", "test_directory_1", "bar1.txt"]) == AfterBar()
  {
    var rel: Path := [".", "test_directory_1", "bar1.txt"];
    assert Strip(Bar, 3) == ["tmp"];
    assert Parent(rel) == [".", "test_directory_1"];
    IntermediateSub(c);
    BarIntoSub();
  }

  lemma VisitBar()
    ensures Visit(AfterFoo().(visited := 3), TestHost(), Bar, [".", "test_directory_1", "bar1.txt"]) == (AfterBar(), Ok)
  {
    var c := AfterFoo().(visited := 4);
    AddBar(c);
    assert TestHost().isMimeType(Bar, {"text/plain"});
    assert Notified(Counted(AfterFoo().(visited := 3)), Bar, [".", "test_directory_1", "bar1.txt"]) == c;
  }

  /** The last two nodes fed after the first file. */
  lemma FeedSubAndBar()
    ensures Feed(AfterFoo(), TestHost(), Walked[2..]) == AfterBar()
  {
    var host := TestHost();
    VisitSub();
    VisitBar();
    var w := Walked[2..];
    assert w[0] == Step(Sub, [".", "test_directory_1"]) && w[1..] == [Walked[3]];
    assert Walked[3] == Step(Bar, [".", "test_directory_1", "bar1.txt"]) && [Walked[3]][1..] == [];
    assert Feed(AfterFoo().(visited := 3), host, [Walked[3]]) == AfterBar();
  }

  /** The walk of `Root` fed to a fresh visitor. */
  lemma FeedTest()
    ensures Feed(Start(false, TestConfig()), TestHost(), Walked) == AfterBar()
  {
    VisitRoot();
    VisitFoo();
    FeedSubAndBar();
    assert Walked[1..][1..] == Walked[2..];
  }

  /**
   * The call gives one top entry, the node `.` with handle `tmp/.`, whose
   * children are `./foo1.txt` and the intermediate `./test_directory_1` with
   * handle `tmp/./test_directory_1`, which in turn holds `./test_directory_1/bar1.txt`.
   */
  lemma TextPlainListing()
    ensures DoListSpec(TestHost(), TestArgs(), true, false) == (Success(Files(
      [Entry(0)],
      [Node(["."], ["tmp", "."], Some([1, 2])),
       Node([".", "foo1.txt"], Foo, None),
       Node([".", "test_directory_1"], ["tmp", ".", "test_directory_1"], Some([3])),
       Node([".", "test_directory_1", "bar1.txt"], Bar, None)])), [])
  {
    ConfigureTest();
    var host := TestHost();
    var b0 := Start(false, TestConfig());
    assert Walk(host, true, false, Root) == Walked;
    assert [Root][..0] == [];
    assert RunRoots(b0, host, true, false, [Root]) == Feed(b0, host, Walked);
    FeedTest();
  }
}

=== FILE: tree_facts.dfy ===
/**
 * What adding a node does to the structured result: the invariant the node
 * table and `listMap` keep, the ancestors that are created on demand (once
 * each, with the anchored handle) and where the new node ends up.
 */
module TreeFacts {
  import opened Wrappers
  import opened Paths
  import opened Listing

  /** The node's children, or the empty list when it has no `children` key. */
  function Kids(n: Node): (kids: seq<nat>)
  {
    if n.children.Some? then n.children.value else []
  }

  /**
   * The invariant of the structured result: every key of `listMap` is a
   * non-empty path whose node carries that path as its relative name and has a
   * `children` list; the keys are closed under taking non-empty prefixes; every
   * list refers to nodes that exist, and a node's children were created after it.
   */
  ghost predicate Wf(b: Builder)
  {
    && [] !in b.listMap
    && (forall t :: t in b.listMap ==> NamesList(b, t) && b.nodes[b.listMap[t]].relativeName == t)
    && (forall t, k :: t in b.listMap && 0 < k < |t| ==> t[..k] in b.listMap)
    && (forall j :: 0 <= j < |b.top| && b.top[j].Entry? ==> b.top[j].id < |b.nodes|)
    && (forall i, j :: 0 <= i < |b.nodes| && 0 <= j < |Kids(b.nodes[i])| ==> i < Kids(b.nodes[i])[j] < |b.nodes|)
  }

  /** `y` is `x` with possibly more children: nothing else of a node ever changes. */
  ghost predicate NodeGrows(x: Node, y: Node)
  {
    && y.relativeName == x.relativeName
    && y.handle == x.handle
    && y.children.Some? == x.children.Some?
    && Kids(x) <= Kids(y)
  }

  /** Lists only grow: the top list and every children list of `b` are prefixes of those of `r`. */
  ghost predicate Grows(b: Builder, r: Builder)
  {
    && b.top <= r.top
    && |b.nodes| <= |r.nodes|
    && (forall i :: 0 <= i < |b.nodes| ==> NodeGrows(b.nodes[i], r.nodes[i]))
  }

  /** Every entry of `m` is in `m'` with the same value. */
  ghost predicate SubMap(m: map<Path, nat>, m': map<Path, nat>)
  {
    forall s :: s in m ==> s in m' && m'[s] == m[s]
  }

  lemma GrowsTransitive(a: Builder, b: Builder, c: Builder)
    requires Grows(a, b) && Grows(b, c)
    ensures Grows(a, c)
  {
    forall i | 0 <= i < |a.nodes|
      ensures NodeGrows(a.nodes[i], c.nodes[i])
    {
      assert NodeGrows(b.nodes[i], c.nodes[i]);
    }
  }

  /**
   * Node `i` is in the list of the parent of its relative name: in the top
   * list when that parent is empty, otherwise in the children of the node
   * registered under the parent.
   */
  ghost predicate Hooked(r: Builder, i: nat)
    requires i < |r.nodes|
  {
    var up := Parent(r.nodes[i].relativeName);
    if up == [] then Entry(i) in r.top
    else up in r.listMap && r.listMap[up] < |r.nodes| && i in Kids(r.nodes[r.listMap[up]])
  }

  /** Every node of `r` that `b` did not have is in its parent's list. */
  ghost predicate DirsHooked(b: Builder, r: Builder)
  {
    forall i :: |b.nodes| <= i < |r.nodes| ==> Hooked(r, i)
  }

  /** A node stays in its parent's list while lists grow and the parent keeps its registration. */
  lemma HookedGrows(r: Builder, r2: Builder, i: nat)
    requires i < |r.nodes| && Hooked(r, i) && Grows(r, r2)
    requires var up := Parent(r.nodes[i].relativeName);
      up != [] ==> up in r2.listMap && r2.listMap[up] == r.listMap[up]
    ensures Hooked(r2, i)
  {
    assert NodeGrows(r.nodes[i], r2.nodes[i]);
    var up := Parent(r.nodes[i].relativeName);
    if up == [] {
      assert r.top == r2.top[..|r.top|];
    } else {
      var owner := r.listMap[up];
      assert NodeGrows(r.nodes[owner], r2.nodes[owner]);
      var old_kids := Kids(r.nodes[owner]);
      assert old_kids == Kids(r2.nodes[owner])[..|old_kids|];
    }
  }

  /** Appending the newest node to an existing list keeps the invariant and only grows lists. */
  lemma AppendNewest(b: Builder, parentRel: Path, id: nat)
    requires Wf(b) && id + 1 == |b.nodes|
    requires parentRel == [] || (NamesList(b, parentRel) && b.listMap[parentRel] < id)
    ensures var r := Append(b, parentRel, id);
      Wf(r) && Grows(b, r) && r.listMap == b.listMap && |r.nodes| == |b.nodes|
  {
    var r := Append(b, parentRel, id);
    if parentRel != [] {
      var owner := b.listMap[parentRel];
      forall i, j | 0 <= i < |r.nodes| && 0 <= j < |Kids(r.nodes[i])|
        ensures i < Kids(r.nodes[i])[j] < |r.nodes|
      {
        if i == owner && j == |Kids(b.nodes[i])| {
        } else {
          assert Kids(r.nodes[i])[j] == Kids(b.nodes[i])[j];
        }
      }
      forall i | 0 <= i < |b.nodes|
        ensures NodeGrows(b.nodes[i], r.nodes[i])
      {
      }
      assert forall t :: t in r.listMap ==> r.nodes[r.listMap[t]].relativeName == b.nodes[b.listMap[t]].relativeName;
    }
  }

  /** The prefixes of `t` are keys once the parent of `t` and its prefixes are. */
  lemma PrefixesOfNewKey(m: map<Path, nat>, t: Path)
    requires t != [] && (Parent(t) == [] || Parent(t) in m)
    requires forall s, k :: s in m && 0 < k < |s| ==> s[..k] in m
    ensures forall k :: 0 < k < |t| ==> t[..k] in m
  {
    forall k | 0 < k < |t|
      ensures t[..k] in m
    {
      var up := Parent(t);
      assert up == t[..|t| - 1];
      if k < |t| - 1 {
        assert t[..k] == up[..k];
      }
    }
  }

  /**
   * Putting a node in the table keeps the invariant (it is not yet in any
   * list), provided its name is not empty, the proper prefixes of its name
   * have lists, and a `children` list it brings is empty.
   */
  lemma PlacedFacts(b: Builder, n: Node)
    requires Wf(b) && n.relativeName != []
    requires forall k :: 0 < k < |n.relativeName| ==> n.relativeName[..k] in b.listMap
    requires n.children.Some? ==> n.children.value == []
    ensures Wf(Placed(b, n)) && Grows(b, Placed(b, n))
  {
    var b2 := Placed(b, n);
    assert forall s :: s in b.listMap ==> b2.nodes[b.listMap[s]] == b.nodes[b.listMap[s]];
    forall i, j | 0 <= i < |b2.nodes| && 0 <= j < |Kids(b2.nodes[i])|
      ensures i < Kids(b2.nodes[i])[j] < |b2.nodes|
    {
      assert i < |b.nodes|;
      assert Kids(b2.nodes[i]) == Kids(b.nodes[i]);
    }
    forall i | 0 <= i < |b.nodes|
      ensures NodeGrows(b.nodes[i], b2.nodes[i])
    {
    }
  }

  /**
   * Ensuring one intermediate directory: nothing happens when it has a list;
   * otherwise exactly one node is created, named `t`, with handle `full`, and
   * registered under `t`.
   */
  lemma EnsureDirFacts(b: Builder, t: Path, full: Path)
    requires Wf(b) && t != []
    requires Parent(t) == [] || Parent(t) in b.listMap
    ensures var r := EnsureDir(b, t, full);
      && Wf(r) && Grows(b, r) && SubMap(b.listMap, r.listMap)
      && (t in b.listMap ==> r == b)
      && (t !in b.listMap ==>
            && |r.nodes| == |b.nodes| + 1
            && r.nodes[|b.nodes|].relativeName == t
            && r.nodes[|b.nodes|].handle == full
            && r.listMap == b.listMap[t := |b.nodes|])
  {
    if t !in b.listMap {
      var id := |b.nodes|;
      var b1 := Placed(b, Node(t, full, Some([])));
      PrefixesOfNewKey(b.listMap, t);
      PlacedFacts(b, Node(t, full, Some([])));
      AppendNewest(b1, Parent(t), id);
      GrowsTransitive(b, b1, Append(b1, Parent(t), id));
    }
  }

  /**
   * The node ensuring `t` creates, when `t` has no list, is appended to the
   * list of the parent of `t`: to the top list when that parent is empty,
   * otherwise to the children of the node registered under it.
   */
  lemma EnsureDirLinked(b: Builder, t: Path, full: Path)
    requires Wf(b) && t != []
    requires Parent(t) == [] || Parent(t) in b.listMap
    ensures var r := EnsureDir(b, t, full);
      t !in b.listMap ==>
        && |b.nodes| < |r.nodes|
        && (Parent(t) == [] ==> r.top == b.top + [Entry(|b.nodes|)])
        && (Parent(t) != [] ==>
              && b.listMap[Parent(t)] < |b.nodes|
              && Kids(r.nodes[b.listMap[Parent(t)]]) == Kids(b.nodes[b.listMap[Parent(t)]]) + [|b.nodes|])
        && Hooked(r, |b.nodes|)
  {
    if t !in b.listMap {
      var id := |b.nodes|;
      var b1 := Placed(b, Node(t, full, Some([])));
      var r := Append(b1, Parent(t), id);
      assert r.nodes[id] == Node(t, full, Some([]));
      if Parent(t) != [] {
        assert Parent(t) != t;
        var owner := b.listMap[Parent(t)];
        assert b1.listMap[Parent(t)] == owner && b1.nodes[owner] == b.nodes[owner];
        assert Kids(r.nodes[owner]) == Kids(b.nodes[owner]) + [id];
      }
    }
  }

  /** A node the ensuring of `rel`'s first `n` prefixes created: a missing prefix of `rel`, anchored at `base`. */
  ghost predicate CreatedDir(b: Builder, r: Builder, rel: Path, base: Path, n: nat, i: nat)
    requires i < |r.nodes|
  {
    var t := r.nodes[i].relativeName;
    && 1 <= |t| <= n && |t| <= |rel| && t == rel[..|t|]
    && t !in b.listMap
    && t in r.listMap && r.listMap[t] == i
    && r.nodes[i].handle == base + t
  }

  /** What ensuring the first `n` prefixes of `rel` has done, going from `b` to `r`. */
  ghost predicate DirsEnsured(b: Builder, r: Builder, rel: Path, base: Path, n: nat)
    requires n <= |rel|
  {
    && SubMap(b.listMap, r.listMap)
    && |b.nodes| <= |r.nodes|
    && (forall k :: 1 <= k <= n ==> rel[..k] in r.listMap)
    && (forall k :: 1 <= k <= n && rel[..k] !in b.listMap ==> |b.nodes| <= r.listMap[rel[..k]])
    && (forall i :: |b.nodes| <= i < |r.nodes| ==> CreatedDir(b, r, rel, base, n, i))
    && (forall s :: s in r.listMap && s !in b.listMap ==> 1 <= |s| <= n && s == rel[..|s|])
  }

  /** Ensuring prefixes keeps the invariant: `EnsureDirsFacts` without the details. */
  lemma EnsureDirsWf(b: Builder, rel: Path, base: Path, n: nat)
    requires Wf(b) && n <= |rel|
    ensures var r := EnsureDirs(b, rel, base, n); Wf(r) && Grows(b, r)
  {
    EnsureDirsFacts(b, rel, base, n);
  }

  /** One more prefix: from what the first `n - 1` did and what ensuring `rel[..n]` did. */
  lemma DirsEnsuredStep(b: Builder, r0: Builder, r: Builder, rel: Path, base: Path, n: nat)
    requires 0 < n <= |rel|
    requires DirsEnsured(b, r0, rel, base, n - 1)
    requires Grows(r0, r) && SubMap(r0.listMap, r.listMap)
    requires rel[..n] in r0.listMap ==> r == r0
    requires rel[..n] !in r0.listMap ==>
      && |r.nodes| == |r0.nodes| + 1
      && r.nodes[|r0.nodes|].relativeName == rel[..n]
      && r.nodes[|r0.nodes|].handle == base + rel[..n]
      && r.listMap == r0.listMap[rel[..n] := |r0.nodes|]
    ensures DirsEnsured(b, r, rel, base, n)
  {
    var t := rel[..n];
    forall i | |b.nodes| <= i < |r.nodes|
      ensures CreatedDir(b, r, rel, base, n, i)
    {
      if i < |r0.nodes| {
        assert CreatedDir(b, r0, rel, base, n - 1, i);
        assert NodeGrows(r0.nodes[i], r.nodes[i]);
      } else {
        assert t !in b.listMap;
      }
    }
    forall k | 1 <= k <= n && rel[..k] !in b.listMap
      ensures |b.nodes| <= r.listMap[rel[..k]]
    {
      if k < n {
        assert rel[..k] in r0.listMap;
      } else {
        assert t !in r0.listMap;
        assert r.listMap[t] == |r0.nodes|;
      }
    }
  }

  /** The nodes hooked so far stay hooked, and the one ensuring `t` created, if any, is hooked too. */
  lemma DirsHookedStep(b: Builder, r0: Builder, r: Builder)
    requires |b.nodes| <= |r0.nodes| && DirsHooked(b, r0)
    requires Grows(r0, r) && SubMap(r0.listMap, r.listMap)
    requires |r.nodes| <= |r0.nodes| + 1 && (|r0.nodes| < |r.nodes| ==> Hooked(r, |r0.nodes|))
    ensures DirsHooked(b, r)
  {
    forall i | |b.nodes| <= i < |r0.nodes|
      ensures Hooked(r, i)
    {
      HookedGrows(r0, r, i);
    }
  }

  /**
   * Ensuring the first `n` prefixes of `rel`: every such prefix ends up with a
   * list; the prefixes that had one keep it; every node created is the list of
   * a prefix that had none, with handle `base` followed by that prefix, and
   * is in the list of its parent; every prefix that had none got a newly
   * created node.
   */
  lemma {:induction false} EnsureDirsFacts(b: Builder, rel: Path, base: Path, n: nat)
    requires Wf(b) && n <= |rel|
    ensures var r := EnsureDirs(b, rel, base, n);
      Wf(r) && Grows(b, r) && DirsEnsured(b, r, rel, base, n) && DirsHooked(b, r)
    decreases n
  {
    if n > 0 {
      EnsureDirsFacts(b, rel, base, n - 1);
      var r0 := EnsureDirs(b, rel, base, n - 1);
      var t := rel[..n];
      ParentOfPrefix(rel, n);
      assert t != [];
      assert n == 1 ==> Parent(t) == [];
      assert n > 1 ==> Parent(t) in r0.listMap by {
        assert DirsEnsured(b, r0, rel, base, n - 1);
      }
      EnsureDirFacts(r0, t, base + t);
      var r := EnsureDir(r0, t, base + t);
      GrowsTransitive(b, r0, r);
      DirsEnsuredStep(b, r0, r, rel, base, n);
      EnsureDirLinked(r0, t, base + t);
      assert |r.nodes| <= |r0.nodes| + 1 && (|r0.nodes| < |r.nodes| ==> Hooked(r, |r0.nodes|)) by {
        if t in r0.listMap {
          assert r == r0;
        }
      }
      DirsHookedStep(b, r0, r);
    }
  }
}

/** Properties of `Listing.AddChild` in structured mode, built on `TreeFacts`. */
module AddChildFacts {
  import opened Wrappers
  import opened Paths
  import opened Listing
  import opened TreeFacts

  /**
   * The lists that existed before node `p` was added stay where they were,
   * except the one registered under `relPath` itself when `p` is a
   * directory, which `p`'s own list replaces; the only new keys are
   * ancestors of `relPath` and, for a directory, `relPath`.
   */
  ghost predicate ListsKept(b: Builder, r: Builder, relPath: Path, isDir: bool)
  {
    var relParent := Parent(relPath);
    && (forall s :: s in b.listMap && !(s == relPath && isDir) ==> s in r.listMap && r.listMap[s] == b.listMap[s])
    && (forall s :: s in r.listMap && s !in b.listMap ==>
          (s == relPath && isDir) || (1 <= |s| <= |relParent| && s == relParent[..|s|]))
  }

  /**
   * Every ancestor of node `p` below the root has a list, and those that had
   * none got a new node, exactly one each, whose handle is `p` with its last
   * |relPath| components removed, followed by the ancestor's relative path;
   * the node for `p` is the only other new node.
   */
  ghost predicate AncestorsCreated(b: Builder, r: Builder, p: Path, relPath: Path)
  {
    var relParent := Parent(relPath);
    var base := Strip(p, |relPath|);
    && |b.nodes| < |r.nodes|
    && (forall k :: 1 <= k <= |relParent| ==> relParent[..k] in r.listMap)
    && (forall k :: 1 <= k <= |relParent| && relParent[..k] !in b.listMap ==>
          |b.nodes| <= r.listMap[relParent[..k]] < |r.nodes| - 1)
    && (forall i :: |b.nodes| <= i < |r.nodes| - 1 ==> CreatedDir(b, r, relParent, base, |relParent|, i))
  }

  /**
   * Where the node for `p` ended up: it is the newest node, has `children`
   * exactly when it is a directory (and then its list is registered under
   * `relPath`), and is the last element of its parent's list.
   */
  ghost predicate LeafPlaced(b: Builder, r: Builder, p: Path, relPath: Path, isDir: bool)
    requires relPath != []
  {
    var relParent := Parent(relPath);
    && 0 < |r.nodes|
    && var last := |r.nodes| - 1;
    && r.nodes[last] == Leaf(p, relPath, isDir)
    && (isDir ==> relPath in r.listMap && r.listMap[relPath] == last)
    && (!isDir ==> (relPath in r.listMap <==> relPath in b.listMap))
    && (relParent == [] ==> r.top != [] && r.top[|r.top| - 1] == Entry(last))
    && (relParent != [] ==>
          && relParent in r.listMap && r.listMap[relParent] < |r.nodes|
          && var kids := Kids(r.nodes[r.listMap[relParent]]);
          kids != [] && kids[|kids| - 1] == last)
  }

  /** The last stage of adding node `p`: put it in the table and append it to its parent's list. */
  function Attach(mid: Builder, p: Path, relPath: Path, isDir: bool): (r: Builder)
    requires ListsOk(mid) && relPath != []
    requires Parent(relPath) != [] ==> NamesList(mid, Parent(relPath))
  {
    PlacedKeepsLists(mid, Leaf(p, relPath, isDir), Parent(relPath));
    Append(Placed(mid, Leaf(p, relPath, isDir)), Parent(relPath), |mid.nodes|)
  }

  /** What the last stage does, field by field. */
  ghost predicate Attached(mid: Builder, r: Builder, p: Path, relPath: Path, isDir: bool)
  {
    var relParent := Parent(relPath);
    var last := |mid.nodes|;
    && |r.nodes| == last + 1
    && r.nodes[last] == Leaf(p, relPath, isDir)
    && (forall i :: 0 <= i < last ==> r.nodes[i].relativeName == mid.nodes[i].relativeName && r.nodes[i].handle == mid.nodes[i].handle)
    && r.listMap == (if isDir then mid.listMap[relPath := last] else mid.listMap)
    && (relParent == [] ==> r.top == mid.top + [Entry(last)])
    && (relParent != [] ==>
          && relParent in mid.listMap && mid.listMap[relParent] < last
          && Kids(r.nodes[mid.listMap[relParent]]) == Kids(mid.nodes[mid.listMap[relParent]]) + [last])
  }

  lemma AttachFacts(mid: Builder, p: Path, relPath: Path, isDir: bool)
    requires ListsOk(mid) && relPath != []
    requires Parent(relPath) != [] ==> NamesList(mid, Parent(relPath))
    ensures Attached(mid, Attach(mid, p, relPath, isDir), p, relPath, isDir)
  {
    var b2 := Placed(mid, Leaf(p, relPath, isDir));
    var relParent := Parent(relPath);
    assert relParent != relPath;
    if relParent != [] {
      assert b2.listMap[relParent] == mid.listMap[relParent];
    }
  }

  /** The last stage keeps the invariant and only grows lists. */
  lemma AttachGrows(mid: Builder, p: Path, relPath: Path, isDir: bool)
    requires Wf(mid) && relPath != []
    requires forall k :: 0 < k < |relPath| ==> relPath[..k] in mid.listMap
    requires Parent(relPath) != [] ==> NamesList(mid, Parent(relPath))
    ensures Wf(Attach(mid, p, relPath, isDir)) && Grows(mid, Attach(mid, p, relPath, isDir))
  {
    PlacedFacts(mid, Leaf(p, relPath, isDir));
    var b2 := Placed(mid, Leaf(p, relPath, isDir));
    AppendNewest(b2, Parent(relPath), |mid.nodes|);
    GrowsTransitive(mid, b2, Append(b2, Parent(relPath), |mid.nodes|));
  }

  lemma KeptFromParts(b: Builder, mid: Builder, r: Builder, p: Path, relPath: Path, isDir: bool)
    requires relPath != []
    requires DirsEnsured(b, mid, Parent(relPath), Strip(p, |relPath|), |Parent(relPath)|)
    requires Attached(mid, r, p, relPath, isDir)
    ensures ListsKept(b, r, relPath, isDir)
  {
    var relParent := Parent(relPath);
    assert SubMap(b.listMap, mid.listMap);
    forall s | s in r.listMap && s !in b.listMap
      ensures (s == relPath && isDir) || (1 <= |s| <= |relParent| && s == relParent[..|s|])
    {
      if !(s == relPath && isDir) {
        assert s in mid.listMap;
      }
    }
  }

  lemma CreatedFromParts(b: Builder, mid: Builder, r: Builder, p: Path, relPath: Path, isDir: bool)
    requires relPath != []
    requires DirsEnsured(b, mid, Parent(relPath), Strip(p, |relPath|), |Parent(relPath)|)
    requires ListsOk(mid)
    requires Attached(mid, r, p, relPath, isDir)
    ensures AncestorsCreated(b, r, p, relPath)
  {
    var relParent := Parent(relPath);
    var base := Strip(p, |relPath|);
    var last := |mid.nodes|;
    forall k | 1 <= k <= |relParent|
      ensures relParent[..k] in r.listMap
      ensures relParent[..k] !in b.listMap ==> |b.nodes| <= r.listMap[relParent[..k]] < last
    {
      assert |relParent[..k]| < |relPath|;
      assert NamesList(mid, relParent[..k]);
    }
    forall i | |b.nodes| <= i < last
      ensures CreatedDir(b, r, relParent, base, |relParent|, i)
    {
      assert CreatedDir(b, mid, relParent, base, |relParent|, i);
    }
  }

  lemma LeafFromParts(b: Builder, mid: Builder, r: Builder, p: Path, relPath: Path, isDir: bool)
    requires relPath != []
    requires DirsEnsured(b, mid, Parent(relPath), Strip(p, |relPath|), |Parent(relPath)|)
    requires Attached(mid, r, p, relPath, isDir)
    ensures LeafPlaced(b, r, p, relPath, isDir)
  {
    var relParent := Parent(relPath);
    assert relParent != [] ==> relParent == relParent[..|relParent|];
    if relParent != [] {
      assert relParent != relPath;
    }
  }

  lemma HookedFromParts(b: Builder, mid: Builder, r: Builder, p: Path, relPath: Path, isDir: bool)
    requires relPath != []
    requires DirsEnsured(b, mid, Parent(relPath), Strip(p, |relPath|), |Parent(relPath)|)
    requires DirsHooked(b, mid) && Grows(mid, r)
    requires Attached(mid, r, p, relPath, isDir)
    ensures DirsHooked(b, r)
  {
    forall i | |b.nodes| <= i < |r.nodes|
      ensures Hooked(r, i)
    {
      if i < |mid.nodes| {
        AncestorStaysHooked(b, mid, r, p, relPath, isDir, i);
      } else {
        LeafHooked(mid, r, p, relPath, isDir);
      }
    }
  }

  /** An ancestor created for `p` stays in its parent's list when `p`'s node is attached. */
  lemma AncestorStaysHooked(b: Builder, mid: Builder, r: Builder, p: Path, relPath: Path, isDir: bool, i: nat)
    requires relPath != []
    requires DirsEnsured(b, mid, Parent(relPath), Strip(p, |relPath|), |Parent(relPath)|)
    requires DirsHooked(b, mid) && Grows(mid, r)
    requires Attached(mid, r, p, relPath, isDir)
    requires |b.nodes| <= i < |mid.nodes|
    ensures Hooked(r, i)
  {
    var relParent := Parent(relPath);
    assert CreatedDir(b, mid, relParent, Strip(p, |relPath|), |relParent|, i);
    assert Hooked(mid, i);
    HookedGrows(mid, r, i);
  }

  /** `p`'s node is the last element of its parent's list once attached. */
  lemma LeafHooked(mid: Builder, r: Builder, p: Path, relPath: Path, isDir: bool)
    requires relPath != []
    requires Attached(mid, r, p, relPath, isDir)
    ensures Hooked(r, |mid.nodes|)
  {
    var relParent := Parent(relPath);
    var last := |mid.nodes|;
    if relParent != [] {
      assert relParent != relPath;
      assert r.listMap[relParent] == mid.listMap[relParent];
      assert Kids(r.nodes[r.listMap[relParent]])[|Kids(mid.nodes[mid.listMap[relParent]])|] == last;
    } else {
      assert r.top[|mid.top|] == Entry(last);
    }
  }

  /** Once the ancestors are ensured, every proper prefix of `relPath` has a list. */
  lemma AncestorsReady(b: Builder, mid: Builder, relPath: Path, base: Path)
    requires relPath != [] && Wf(mid)
    requires DirsEnsured(b, mid, Parent(relPath), base, |Parent(relPath)|)
    ensures forall k :: 0 < k < |relPath| ==> relPath[..k] in mid.listMap
    ensures Parent(relPath) != [] ==> NamesList(mid, Parent(relPath))
  {
    var relParent := Parent(relPath);
    forall k | 0 < k < |relPath|
      ensures relPath[..k] in mid.listMap
    {
      assert relPath[..k] == relParent[..k];
    }
    assert relParent != [] ==> relParent == relParent[..|relParent|];
  }

  /** Adding node `p` in structured mode keeps the invariant and only grows lists. */
  lemma AddedShape(b: Builder, host: Host, p: Path, relPath: Path)
    requires Wf(b) && !b.flat && p != [] && relPath != []
    ensures Wf(AddChild(b, host, p, relPath)) && Grows(b, AddChild(b, host, p, relPath))
  {
    var relParent := Parent(relPath);
    var base := Strip(p, |relPath|);
    EnsureDirsFacts(b, relParent, base, |relParent|);
    Stages(b, host, p, relPath);
    GrowsTransitive(b, EnsureDirs(b, relParent, base, |relParent|), AddChild(b, host, p, relPath));
  }

  /** The state `AddChild` builds in structured mode, spelled out through its stages. */
  lemma Stages(b: Builder, host: Host, p: Path, relPath: Path)
    requires Wf(b) && !b.flat && p != [] && relPath != []
    ensures var mid := EnsureDirs(b, Parent(relPath), Strip(p, |relPath|), |Parent(relPath)|);
      && DirsEnsured(b, mid, Parent(relPath), Strip(p, |relPath|), |Parent(relPath)|)
      && (Parent(relPath) != [] ==> NamesList(mid, Parent(relPath)))
      && Wf(mid) && DirsHooked(b, mid)
      && Attached(mid, AddChild(b, host, p, relPath), p, relPath, host.isDirectory(p))
      && Wf(AddChild(b, host, p, relPath)) && Grows(mid, AddChild(b, host, p, relPath))
  {
    var relParent := Parent(relPath);
    var base := Strip(p, |relPath|);
    EnsureDirsFacts(b, relParent, base, |relParent|);
    var mid := EnsureDirs(b, relParent, base, |relParent|);
    AncestorsReady(b, mid, relPath, base);
    AttachFacts(mid, p, relPath, host.isDirectory(p));
    AttachGrows(mid, p, relPath, host.isDirectory(p));
    assert AddChild(b, host, p, relPath) == Attach(mid, p, relPath, host.isDirectory(p));
  }

  /** In structured mode `AddChild` is the last stage applied to the state with the ancestors ensured. */
  lemma AddChildIsAttach(b: Builder, host: Host, p: Path, relPath: Path)
    requires Wf(b) && !b.flat && p != [] && relPath != []
    ensures var mid := EnsureDirs(b, Parent(relPath), Strip(p, |relPath|), |Parent(relPath)|);
      && Wf(mid)
      && (Parent(relPath) != [] ==> NamesList(mid, Parent(relPath)))
      && AddChild(b, host, p, relPath) == Attach(mid, p, relPath, host.isDirectory(p))
  {
    var relParent := Parent(relPath);
    var base := Strip(p, |relPath|);
    EnsureDirsFacts(b, relParent, base, |relParent|);
    AncestorsReady(b, EnsureDirs(b, relParent, base, |relParent|), relPath, base);
  }

  /** Adding node `p` in structured mode keeps the lists that existed and adds only its ancestors' and its own. */
  lemma AddedKept(b: Builder, host: Host, p: Path, relPath: Path)
    requires Wf(b) && !b.flat && p != [] && relPath != []
    ensures ListsKept(b, AddChild(b, host, p, relPath), relPath, host.isDirectory(p))
  {
    Stages(b, host, p, relPath);
    var mid := EnsureDirs(b, Parent(relPath), Strip(p, |relPath|), |Parent(relPath)|);
    KeptFromParts(b, mid, AddChild(b, host, p, relPath), p, relPath, host.isDirectory(p));
  }

  /**
   * Adding node `p` in structured mode creates the missing ancestors, anchored,
   * and nothing else but `p`'s node; every node it creates is in the list of
   * its parent, the top list for a node at the first level.
   */
  lemma AddedAncestors(b: Builder, host: Host, p: Path, relPath: Path)
    requires Wf(b) && !b.flat && p != [] && relPath != []
    ensures AncestorsCreated(b, AddChild(b, host, p, relPath), p, relPath)
    ensures DirsHooked(b, AddChild(b, host, p, relPath))
  {
    Stages(b, host, p, relPath);
    var mid := EnsureDirs(b, Parent(relPath), Strip(p, |relPath|), |Parent(relPath)|);
    CreatedFromParts(b, mid, AddChild(b, host, p, relPath), p, relPath, host.isDirectory(p));
    HookedFromParts(b, mid, AddChild(b, host, p, relPath), p, relPath, host.isDirectory(p));
  }

  /** Adding node `p` in structured mode puts its node last in its parent's list. */
  lemma AddedLeaf(b: Builder, host: Host, p: Path, relPath: Path)
    requires Wf(b) && !b.flat && p != [] && relPath != []
    ensures LeafPlaced(b, AddChild(b, host, p, relPath), p, relPath, host.isDirectory(p))
  {
    Stages(b, host, p, relPath);
    var mid := EnsureDirs(b, Parent(relPath), Strip(p, |relPath|), |Parent(relPath)|);
    LeafFromParts(b, mid, AddChild(b, host, p, relPath), p, relPath, host.isDirectory(p));
  }

  /** Adding node `p` in structured mode keeps the invariant, only grows lists, creates the missing ancestors, links every new node into its parent's list and places the node. */
  lemma Added(b: Builder, host: Host, p: Path, relPath: Path)
    requires Wf(b) && !b.flat && p != [] && relPath != []
    ensures var r := AddChild(b, host, p, relPath);
      && Wf(r) && Grows(b, r)
      && ListsKept(b, r, relPath, host.isDirectory(p))
      && AncestorsCreated(b, r, p, relPath) && DirsHooked(b, r)
      && LeafPlaced(b, r, p, relPath, host.isDirectory(p))
  {
    AddedShape(b, host, p, relPath);
    AddedKept(b, host, p, relPath);
    AddedAncestors(b, host, p, relPath);
    AddedLeaf(b, host, p, relPath);
  }

  /**
   * The handle of every intermediate directory created for node `p` is `p`
   * with its last |relPath| components removed (nothing is left when `p` is
   * shorter), followed by the directory's relative path.
   */
  lemma AnchoredHandles(b: Builder, host: Host, p: Path, relPath: Path)
    requires Wf(b) && !b.flat && p != [] && relPath != []
    ensures var r := AddChild(b, host, p, relPath);
      var anchor := p[..if |relPath| <= |p| then |p| - |relPath| else 0];
      forall i :: |b.nodes| <= i < |r.nodes| - 1 ==> r.nodes[i].handle == anchor + r.nodes[i].relativeName
  {
    AddedAncestors(b, host, p, relPath);
    HandlesOfCreated(b, AddChild(b, host, p, relPath), p, relPath);
  }

  lemma HandlesOfCreated(b: Builder, r: Builder, p: Path, relPath: Path)
    requires relPath != [] && AncestorsCreated(b, r, p, relPath)
    ensures var anchor := p[..if |relPath| <= |p| then |p| - |relPath| else 0];
      forall i :: |b.nodes| <= i < |r.nodes| - 1 ==> r.nodes[i].handle == anchor + r.nodes[i].relativeName
  {
    var relParent := Parent(relPath);
    var base := Strip(p, |relPath|);
    forall i | |b.nodes| <= i < |r.nodes| - 1
      ensures r.nodes[i].handle == base + r.nodes[i].relativeName
    {
      assert CreatedDir(b, r, relParent, base, |relParent|, i);
    }
  }

  /** The names of new ancestor nodes: distinct prefixes of the parent of `relPath` that had no list. */
  ghost predicate FreshAncestors(b: Builder, r: Builder, relPath: Path)
  {
    var relParent := Parent(relPath);
    && (forall i :: |b.nodes| <= i < |r.nodes| - 1 ==>
          var t := r.nodes[i].relativeName;
          1 <= |t| <= |relParent| && t == relParent[..|t|] && t !in b.listMap)
    && (forall i, j :: |b.nodes| <= i < j < |r.nodes| - 1 ==> r.nodes[i].relativeName != r.nodes[j].relativeName)
    && (forall k :: 1 <= k <= |relParent| && relParent[..k] !in b.listMap ==>
          && relParent[..k] in r.listMap
          && var i := r.listMap[relParent[..k]];
          |b.nodes| <= i < |r.nodes| - 1 && r.nodes[i].relativeName == relParent[..k])
  }

  lemma FreshFromCreated(b: Builder, r: Builder, p: Path, relPath: Path)
    requires relPath != [] && Wf(r) && AncestorsCreated(b, r, p, relPath)
    ensures FreshAncestors(b, r, relPath)
  {
    var relParent := Parent(relPath);
    var base := Strip(p, |relPath|);
    forall i | |b.nodes| <= i < |r.nodes| - 1
      ensures var t := r.nodes[i].relativeName; 1 <= |t| <= |relParent| && t == relParent[..|t|] && t !in b.listMap
    {
      assert CreatedDir(b, r, relParent, base, |relParent|, i);
    }
    forall i, j | |b.nodes| <= i < j < |r.nodes| - 1
      ensures r.nodes[i].relativeName != r.nodes[j].relativeName
    {
      assert CreatedDir(b, r, relParent, base, |relParent|, i);
      assert CreatedDir(b, r, relParent, base, |relParent|, j);
    }
  }

  /**
   * Intermediate directories are created only where missing and once each:
   * the new nodes other than `p`'s are named by distinct prefixes of the
   * parent of `relPath` that had no list, and every such prefix is now
   * registered to one of them.
   */
  lemma AncestorsOnce(b: Builder, host: Host, p: Path, relPath: Path)
    requires Wf(b) && !b.flat && p != [] && relPath != []
    ensures FreshAncestors(b, AddChild(b, host, p, relPath), relPath)
  {
    AddedShape(b, host, p, relPath);
    AddedAncestors(b, host, p, relPath);
    FreshFromCreated(b, AddChild(b, host, p, relPath), p, relPath);
  }

  /** A prefix of the parent of `relPath` already has a list when the parent has one. */
  lemma PrefixHasList(b: Builder, relPath: Path, t: Path)
    requires Wf(b) && (Parent(relPath) == [] || Parent(relPath) in b.listMap)
    requires 1 <= |t| <= |Parent(relPath)| && t == Parent(relPath)[..|t|]
    ensures t in b.listMap
  {
    var relParent := Parent(relPath);
    if |t| == |relParent| {
      assert t == relParent;
    }
  }

  lemma NoneFresh(b: Builder, r: Builder, relPath: Path)
    requires Wf(b) && FreshAncestors(b, r, relPath) && |b.nodes| < |r.nodes|
    requires Parent(relPath) == [] || Parent(relPath) in b.listMap
    ensures |r.nodes| == |b.nodes| + 1
  {
    if |r.nodes| > |b.nodes| + 1 {
      PrefixHasList(b, relPath, r.nodes[|b.nodes|].relativeName);
      assert false;
    }
  }

  /**
   * When the parent of `relPath` already has a list (it is the top list or its
   * directory was added before), the only new node is `p`'s.
   */
  lemma ParentListReused(b: Builder, host: Host, p: Path, relPath: Path)
    requires Wf(b) && !b.flat && p != [] && relPath != []
    requires Parent(relPath) == [] || Parent(relPath) in b.listMap
    ensures |AddChild(b, host, p, relPath).nodes| == |b.nodes| + 1
  {
    AncestorsOnce(b, host, p, relPath);
    AddedAncestors(b, host, p, relPath);
    NoneFresh(b, AddChild(b, host, p, relPath), relPath);
  }
}

=== FILE: visit_facts.dfy ===
/**
 * What the visitor does over a sequence of calls: the examined-node counter,
 * the limit, the filter, and why the walker's early stop makes no difference
 * to the result.
 */
module VisitFacts {
  import opened Wrappers
  import opened Paths
  import opened Listing
  import opened TreeFacts
  import opened AddChildFacts

  /** The part of the state that is handed back as the result. */
  function Output(b: Builder): (seq<Item>, seq<Node>, map<Path, nat>)
  {
    (b.top, b.nodes, b.listMap)
  }

  /** The settings a visitor's calls never change. */
  ghost predicate SameSettings(b: Builder, r: Builder)
  {
    r.flat == b.flat && r.mimeTypes == b.mimeTypes && r.limit == b.limit && r.hasCallback == b.hasCallback
  }

  /** Whether the visitor keeps node `s` once it has examined it under the limit. */
  predicate Kept(host: Host, mimeTypes: set<string>, s: Step)
  {
    host.isMimeType(s.path, mimeTypes) && s.path != [] && s.relPath != []
  }

  /** The handles of the nodes in `steps` that the filter keeps, in order: the flat result of examining them all. */
  function Matches(host: Host, mimeTypes: set<string>, steps: seq<Step>): (r: seq<Item>)
    ensures |r| <= |steps|
    ensures forall j :: 0 <= j < |r| ==> r[j].Handle?
  {
    if steps == [] then []
    else (if Kept(host, mimeTypes, steps[0]) then [Handle(steps[0].path)] else []) + Matches(host, mimeTypes, steps[1..])
  }

  /** The callback notifications for the nodes in `steps` that pass the filter, in order. */
  function NoticesFor(host: Host, flat: bool, mimeTypes: set<string>, steps: seq<Step>): (r: seq<Notice>)
    ensures |r| <= |steps|
  {
    if steps == [] then []
    else
      var s := steps[0];
      (if host.isMimeType(s.path, mimeTypes) then [Notice(s.path, if flat then None else Some(s.relPath))] else [])
      + NoticesFor(host, flat, mimeTypes, steps[1..])
  }

  /** How many of `n` further calls are still under the limit. */
  function Allowed(b: Builder, n: nat): (k: nat)
    ensures k <= n
    ensures b.visited >= b.limit ==> k == 0
    ensures b.visited < b.limit ==> k == if n <= b.limit - b.visited then n else b.limit - b.visited
  {
    if b.visited >= b.limit then 0
    else if n <= b.limit - b.visited then n
    else b.limit - b.visited
  }

  /** The number of `Ok` answers. */
  function CountOk(answers: seq<Status>): (c: nat)
    ensures c <= |answers|
  {
    if answers == [] then 0 else (if answers[0] == Ok then 1 else 0) + CountOk(answers[1..])
  }

  /** The notification one call issues: one when it is under the limit, passes the filter and a callback is set. */
  function NoticeOf(b: Builder, host: Host, p: Path, relPath: Path): (r: seq<Notice>)
  {
    if b.visited < b.limit && b.hasCallback && host.isMimeType(p, b.mimeTypes)
    then [Notice(p, if b.flat then None else Some(relPath))]
    else []
  }

  /** One call counts the node and issues its notification, and changes nothing else outside the result. */
  lemma VisitOutside(b: Builder, host: Host, p: Path, relPath: Path)
    requires ListsOk(b)
    ensures Outside(Visit(b, host, p, relPath).0)
         == Outside(b).(visited := b.visited + 1, notices := b.notices + NoticeOf(b, host, p, relPath))
  {
    if b.visited < b.limit && host.isMimeType(p, b.mimeTypes) {
      var notified := Notified(Counted(b), p, relPath);
      AddChildOutside(notified, host, p, relPath);
    }
  }

  /** The answer is `Stop` exactly when the count before the call had reached the limit, and then only the counter moves. */
  lemma VisitStops(b: Builder, host: Host, p: Path, relPath: Path)
    requires ListsOk(b)
    ensures var (r, status) := Visit(b, host, p, relPath);
      && (status == Stop <==> b.visited >= b.limit)
      && (status == Stop ==> r == b.(visited := b.visited + 1))
  {
  }

  /**
   * In flat mode a call under the limit appends the handle of a kept node to
   * the top list, and no call touches the node table or the directory lists.
   */
  lemma VisitFlat(b: Builder, host: Host, p: Path, relPath: Path)
    requires ListsOk(b) && b.flat
    ensures Visit(b, host, p, relPath).0.top
         == b.top + (if b.visited < b.limit && Kept(host, b.mimeTypes, Step(p, relPath)) then [Handle(p)] else [])
    ensures Visit(b, host, p, relPath).0.nodes == b.nodes
    ensures Visit(b, host, p, relPath).0.listMap == b.listMap
  {
  }

  /**
   * One call: the counter goes up by one; the answer is `Stop` exactly when
   * the count before the call had reached the limit, and then nothing else
   * changes; a notification goes out for a node that passes the filter; in
   * flat mode the handle of a kept node is appended to the top list and the
   * node table and directory lists stay as they were.
   */
  lemma VisitBasics(b: Builder, host: Host, p: Path, relPath: Path)
    requires ListsOk(b)
    ensures var (r, status) := Visit(b, host, p, relPath);
      && Outside(r) == Outside(b).(visited := b.visited + 1, notices := b.notices + NoticeOf(b, host, p, relPath))
      && (status == Stop <==> b.visited >= b.limit)
      && (status == Stop ==> r == b.(visited := b.visited + 1))
      && (b.flat ==> r.top == b.top + (if b.visited < b.limit && Kept(host, b.mimeTypes, Step(p, relPath)) then [Handle(p)] else []))
      && (b.flat ==> r.nodes == b.nodes && r.listMap == b.listMap)
  {
    VisitOutside(b, host, p, relPath);
    VisitStops(b, host, p, relPath);
    if b.flat {
      VisitFlat(b, host, p, relPath);
    }
  }

  /** One call keeps the invariant and only adds to the lists. */
  lemma VisitKeepsShape(b: Builder, host: Host, p: Path, relPath: Path)
    requires Wf(b)
    ensures Wf(Visit(b, host, p, relPath).0) && Grows(b, Visit(b, host, p, relPath).0)
  {
    if b.visited < b.limit && host.isMimeType(p, b.mimeTypes) {
      var notified := Notified(Counted(b), p, relPath);
      assert Wf(notified) && Grows(b, notified);
      if p != [] && relPath != [] && !b.flat {
        AddedShape(notified, host, p, relPath);
        GrowsTransitive(b, notified, AddChild(notified, host, p, relPath));
      }
    }
  }

  /** One call changes the result exactly when it is under the limit, the filter keeps the node and its paths are not empty. */
  lemma VisitChanges(b: Builder, host: Host, p: Path, relPath: Path)
    requires Wf(b)
    ensures var r := Visit(b, host, p, relPath).0;
      Output(r) != Output(b) <==> b.visited < b.limit && Kept(host, b.mimeTypes, Step(p, relPath))
  {
    var r := Visit(b, host, p, relPath).0;
    if b.visited < b.limit && host.isMimeType(p, b.mimeTypes) {
      var notified := Notified(Counted(b), p, relPath);
      assert Wf(notified);
      if p != [] && relPath != [] {
        if b.flat {
          assert r.top == b.top + [Handle(p)];
        } else {
          AddedAncestors(notified, host, p, relPath);
          assert |r.nodes| > |b.nodes|;
        }
      }
    } else {
      VisitStops(b, host, p, relPath);
    }
  }

  /**
   * Calls on every step: the counter goes up by one per call, and call `i`
   * answers `Ok` exactly when the count before it, `b.visited + i`, is under
   * the limit; so once a call answers `Stop`, every later call does too.
   */
  lemma {:induction false} CounterAndAnswers(b: Builder, host: Host, steps: seq<Step>)
    requires ListsOk(b)
    ensures var (r, answers) := VisitAll(b, host, steps);
      && r.visited == b.visited + |steps|
      && SameSettings(b, r)
      && (forall i :: 0 <= i < |steps| ==> (answers[i] == Ok <==> b.visited + i < b.limit))
    decreases |steps|
  {
    if steps != [] {
      var (b1, s) := Visit(b, host, steps[0].path, steps[0].relPath);
      VisitBasics(b, host, steps[0].path, steps[0].relPath);
      CounterAndAnswers(b1, host, steps[1..]);
      var (r, answers) := VisitAll(b, host, steps);
      forall i | 0 <= i < |steps|
        ensures answers[i] == Ok <==> b.visited + i < b.limit
      {
        if i > 0 {
          assert answers[i] == VisitAll(b1, host, steps[1..]).1[i - 1];
        }
      }
    }
  }

  /** Calls past the limit add nothing: only the counter moves, and every answer is `Stop`. */
  lemma {:induction false} StopAbsorbs(b: Builder, host: Host, steps: seq<Step>)
    requires ListsOk(b) && b.visited >= b.limit
    ensures VisitAll(b, host, steps).0 == b.(visited := b.visited + |steps|)
    ensures forall i :: 0 <= i < |steps| ==> VisitAll(b, host, steps).1[i] == Stop
    decreases |steps|
  {
    if steps != [] {
      var b1 := b.(visited := b.visited + 1);
      VisitBasics(b, host, steps[0].path, steps[0].relPath);
      StopAbsorbs(b1, host, steps[1..]);
    }
  }

  /** Exactly as many calls answer `Ok` as are under the limit, so at most `limit` calls ever do. */
  lemma {:induction false} OkCount(b: Builder, host: Host, steps: seq<Step>)
    requires ListsOk(b)
    ensures CountOk(VisitAll(b, host, steps).1) == Allowed(b, |steps|)
    ensures CountOk(VisitAll(b, host, steps).1) <= b.limit
    decreases |steps|
  {
    if steps != [] {
      var (b1, s) := Visit(b, host, steps[0].path, steps[0].relPath);
      VisitBasics(b, host, steps[0].path, steps[0].relPath);
      OkCount(b1, host, steps[1..]);
    }
  }

  /** The invariant holds and lists only grow over any number of calls. */
  lemma {:induction false} VisitAllKeepsShape(b: Builder, host: Host, steps: seq<Step>)
    requires Wf(b)
    ensures Wf(VisitAll(b, host, steps).0) && Grows(b, VisitAll(b, host, steps).0)
    decreases |steps|
  {
    if steps != [] {
      var (b1, s) := Visit(b, host, steps[0].path, steps[0].relPath);
      VisitKeepsShape(b, host, steps[0].path, steps[0].relPath);
      VisitAllKeepsShape(b1, host, steps[1..]);
      GrowsTransitive(b, b1, VisitAll(b, host, steps).0);
    }
  }

  /**
   * Flat mode: the top list grows by the handles of the examined nodes that
   * are under the limit and pass the filter, in order; the limit counts the
   * examined nodes, not the added ones. The node table and the directory
   * lists stay as they were.
   */
  lemma {:induction false} FlatResult(b: Builder, host: Host, steps: seq<Step>)
    requires ListsOk(b) && b.flat
    ensures VisitAll(b, host, steps).0.top == b.top + Matches(host, b.mimeTypes, steps[..Allowed(b, |steps|)])
    ensures VisitAll(b, host, steps).0.nodes == b.nodes && VisitAll(b, host, steps).0.listMap == b.listMap
    decreases |steps|
  {
    if steps == [] {
    } else if b.visited >= b.limit {
      StopAbsorbs(b, host, steps);
    } else {
      var b1 := Visit(b, host, steps[0].path, steps[0].relPath).0;
      VisitFlat(b, host, steps[0].path, steps[0].relPath);
      VisitOutside(b, host, steps[0].path, steps[0].relPath);
      FlatResult(b1, host, steps[1..]);
      FlatStep(b, host, steps);
    }
  }

  /** The inductive step of `FlatResult`, for a first call under the limit. */
  lemma FlatStep(b: Builder, host: Host, steps: seq<Step>)
    requires ListsOk(b) && b.flat && steps != [] && b.visited < b.limit
    requires var b1 := Visit(b, host, steps[0].path, steps[0].relPath).0;
      VisitAll(b1, host, steps[1..]).0.top == b1.top + Matches(host, b.mimeTypes, steps[1..][..Allowed(b1, |steps| - 1)])
    ensures VisitAll(b, host, steps).0.top == b.top + Matches(host, b.mimeTypes, steps[..Allowed(b, |steps|)])
  {
    var b1 := Visit(b, host, steps[0].path, steps[0].relPath).0;
    VisitFlat(b, host, steps[0].path, steps[0].relPath);
    VisitOutside(b, host, steps[0].path, steps[0].relPath);
    assert b1.limit == b.limit && b1.visited == b.visited + 1 && b1.mimeTypes == b.mimeTypes;
    var n := Allowed(b, |steps|);
    assert Allowed(b1, |steps| - 1) == n - 1;
    var h := if Kept(host, b.mimeTypes, steps[0]) then [Handle(steps[0].path)] else [];
    var m := Matches(host, b.mimeTypes, steps[1..][..n - 1]);
    MatchesPrefix(host, b.mimeTypes, steps, n);
    assert b1.top == b.top + h;
    AppendAssoc(b.top, h, m);
    calc {
      VisitAll(b, host, steps).0.top;
      VisitAll(b1, host, steps[1..]).0.top;
      b1.top + m;
      b.top + (h + m);
    }
  }

  /** The matches among the first `n` steps: the first step's, then those among the next `n - 1`. */
  lemma MatchesPrefix(host: Host, mimeTypes: set<string>, steps: seq<Step>, n: nat)
    requires 0 < n <= |steps|
    ensures Matches(host, mimeTypes, steps[..n])
         == (if Kept(host, mimeTypes, steps[0]) then [Handle(steps[0].path)] else []) + Matches(host, mimeTypes, steps[1..][..n - 1])
  {
    assert steps[..n][0] == steps[0];
    assert steps[..n][1..] == steps[1..][..n - 1];
  }

  /** With a callback, one notification per examined node under the limit that passes the filter, in order; none without. */
  lemma {:induction false} Notifications(b: Builder, host: Host, steps: seq<Step>)
    requires ListsOk(b)
    ensures VisitAll(b, host, steps).0.notices == b.notices + NoticesUpTo(b, host, steps)
    decreases |steps|
  {
    if steps == [] {
    } else if b.visited >= b.limit {
      StopAbsorbs(b, host, steps);
    } else {
      var b1 := Visit(b, host, steps[0].path, steps[0].relPath).0;
      Notifications(b1, host, steps[1..]);
      NotificationsStep(b, host, steps);
    }
  }

  /** The notifications calls on `steps` issue: those for the nodes under the limit, and none without a callback. */
  function NoticesUpTo(b: Builder, host: Host, steps: seq<Step>): seq<Notice>
  {
    if b.hasCallback then NoticesFor(host, b.flat, b.mimeTypes, steps[..Allowed(b, |steps|)]) else []
  }

  /** The notifications due for `steps`: the first step's, then those due for the rest from the next state. */
  lemma NoticesUpToStep(b: Builder, b1: Builder, host: Host, steps: seq<Step>)
    requires steps != [] && b.visited < b.limit
    requires b1.limit == b.limit && b1.visited == b.visited + 1 && b1.mimeTypes == b.mimeTypes
    requires b1.flat == b.flat && b1.hasCallback == b.hasCallback
    ensures NoticesUpTo(b, host, steps) == NoticeOf(b, host, steps[0].path, steps[0].relPath) + NoticesUpTo(b1, host, steps[1..])
  {
    var n := Allowed(b, |steps|);
    assert Allowed(b1, |steps| - 1) == n - 1;
    if b.hasCallback {
      assert steps[..n][0] == steps[0];
      assert steps[..n][1..] == steps[1..][..n - 1];
    }
  }

  /** The inductive step of `Notifications`, for a first call under the limit. */
  lemma NotificationsStep(b: Builder, host: Host, steps: seq<Step>)
    requires ListsOk(b) && steps != [] && b.visited < b.limit
    requires var b1 := Visit(b, host, steps[0].path, steps[0].relPath).0;
      VisitAll(b1, host, steps[1..]).0.notices == b1.notices + NoticesUpTo(b1, host, steps[1..])
    ensures VisitAll(b, host, steps).0.notices == b.notices + NoticesUpTo(b, host, steps)
  {
    var b1 := Visit(b, host, steps[0].path, steps[0].relPath).0;
    VisitOutside(b, host, steps[0].path, steps[0].relPath);
    assert b1.limit == b.limit && b1.visited == b.visited + 1 && b1.mimeTypes == b.mimeTypes;
    assert b1.flat == b.flat && b1.hasCallback == b.hasCallback;
    var h := NoticeOf(b, host, steps[0].path, steps[0].relPath);
    var m := NoticesUpTo(b1, host, steps[1..]);
    NoticesUpToStep(b, b1, host, steps);
    assert b1.notices == b.notices + h;
    AppendAssoc(b.notices, h, m);
    calc {
      VisitAll(b, host, steps).0.notices;
      VisitAll(b1, host, steps[1..]).0.notices;
      b1.notices + m;
      b.notices + (h + m);
    }
  }

  /** Offering two runs of steps one after the other is offering their concatenation. */
  lemma {:induction false} VisitAllConcat(b: Builder, host: Host, s1: seq<Step>, s2: seq<Step>)
    requires ListsOk(b)
    ensures VisitAll(b, host, s1 + s2).0 == VisitAll(VisitAll(b, host, s1).0, host, s2).0
    decreases |s1|
  {
    if s1 != [] {
      var (b1, s) := Visit(b, host, s1[0].path, s1[0].relPath);
      assert (s1 + s2)[0] == s1[0] && (s1 + s2)[1..] == s1[1..] + s2;
      assert VisitAll(b, host, s1 + s2).0 == VisitAll(b1, host, s1[1..] + s2).0;
      assert VisitAll(b, host, s1).0 == VisitAll(b1, host, s1[1..]).0;
      VisitAllConcat(b1, host, s1[1..], s2);
    } else {
      assert s1 + s2 == s2;
    }
  }

  /**
   * Two states that differ at most in a counter that is past the limit in
   * both: no further call can tell them apart.
   */
  ghost predicate Equiv(x: Builder, y: Builder)
  {
    && x.(visited := 0) == y.(visited := 0)
    && (x.visited < x.limit || y.visited < y.limit ==> x.visited == y.visited)
  }

  lemma EquivTransitive(x: Builder, y: Builder, z: Builder)
    requires Equiv(x, y) && Equiv(y, z)
    ensures Equiv(x, z)
  {
    assert x.limit == y.limit == z.limit;
  }

  /** Calls on equivalent states answer the same and lead to equivalent states. */
  lemma {:induction false} VisitAllEquiv(x: Builder, y: Builder, host: Host, steps: seq<Step>)
    requires ListsOk(x) && ListsOk(y) && Equiv(x, y)
    ensures Equiv(VisitAll(x, host, steps).0, VisitAll(y, host, steps).0)
    ensures VisitAll(x, host, steps).1 == VisitAll(y, host, steps).1
    decreases |steps|
  {
    if steps != [] {
      if x.visited < x.limit {
        assert x == y;
      } else {
        assert y.visited >= y.limit;
        VisitBasics(x, host, steps[0].path, steps[0].relPath);
        VisitBasics(y, host, steps[0].path, steps[0].relPath);
        StopAbsorbs(x, host, steps);
        StopAbsorbs(y, host, steps);
      }
    }
  }

  /**
   * The walker stops at the first `Stop`; that makes no difference: the state
   * it leaves is equivalent to offering every step.
   */
  lemma {:induction false} FeedAgrees(b: Builder, host: Host, steps: seq<Step>)
    requires ListsOk(b)
    ensures Equiv(Feed(b, host, steps), VisitAll(b, host, steps).0)
    decreases |steps|
  {
    if steps != [] {
      var (b1, s) := Visit(b, host, steps[0].path, steps[0].relPath);
      VisitBasics(b, host, steps[0].path, steps[0].relPath);
      if s == Stop {
        StopAbsorbs(b1, host, steps[1..]);
      } else {
        FeedAgrees(b1, host, steps[1..]);
      }
    }
  }

  /** The walker's protocol keeps the invariant too, and lists only grow. */
  lemma {:induction false} FeedKeepsShape(b: Builder, host: Host, steps: seq<Step>)
    requires Wf(b)
    ensures Wf(Feed(b, host, steps)) && Grows(b, Feed(b, host, steps))
    decreases |steps|
  {
    if steps != [] {
      var (b1, s) := Visit(b, host, steps[0].path, steps[0].relPath);
      VisitKeepsShape(b, host, steps[0].path, steps[0].relPath);
      if s != Stop {
        FeedKeepsShape(b1, host, steps[1..]);
        GrowsTransitive(b, b1, Feed(b, host, steps));
      }
    }
  }
}

=== FILE: visitor.dfy ===
/**
 * The `ListVisitor` object: the same state as `Listing.Builder`, kept in
 * fields that its methods update in place.  Each method is proved to leave
 * the object in the state the corresponding `Listing` function computes.
 */
module Visitor {
  import opened Wrappers
  import opened Paths
  import opened Listing

  class ListVisitor {
    const flat: bool
    var mimeTypes: set<string>
    var limit: nat
    var hasCallback: bool
    var visited: nat
    var notices: seq<Notice>
    var topList: seq<Item>
    var nodes: seq<Node>
    /** Relative path to the node whose `children` list it stands for. */
    var listMap: map<Path, nat>

    /** The visitor's fields as one value. */
    function State(): (s: Builder)
      reads this
    {
      Builder(flat, mimeTypes, limit, hasCallback, visited, notices, topList, nodes, listMap)
    }

    ghost predicate Valid()
      reads this
    {
      ListsOk(State())
    }

    constructor (flat: bool)
      ensures Valid() && State() == Initial(flat)
    {
      this.flat := flat;
      mimeTypes := {};
      limit := DefaultLimit;
      hasCallback := false;
      visited := 0;
      notices := [];
      topList := [];
      nodes := [];
      listMap := map[];
    }

    method SetMimeTypes(mt: set<string>)
      requires Valid()
      modifies this
      ensures Valid() && State() == old(State()).(mimeTypes := mt)
    {
      mimeTypes := mt;
    }

    method SetCallback()
      requires Valid()
      modifies this
      ensures Valid() && State() == old(State()).(hasCallback := true)
    {
      hasCallback := true;
    }

    method SetLimit(l: nat)
      requires Valid()
      modifies this
      ensures Valid() && State() == old(State()).(limit := l)
    {
      limit := l;
    }

    /** Counts the node, stops once the limit was already reached, otherwise filters and adds it. */
    method VisitNode(host: Host, p: Path, relPath: Path) returns (r: Status)
      requires Valid()
      modifies this
      ensures Valid() && (State(), r) == Visit(old(State()), host, p, relPath)
    {
      var before := visited;
      visited := visited + 1;
      if before >= limit {
        return Stop;
      }
      if host.isMimeType(p, mimeTypes) {
        if hasCallback {
          notices := notices + [Notice(p, if flat then None else Some(relPath))];
        }
        AddChild(host, p, relPath);
      }
      return Ok;
    }

    /**
     * Adds node `p`: in flat mode its handle goes to the top list; in
     * structured mode the lists of all its ancestors below the root are
     * created where missing, and a node for `p` is appended to its parent's list.
     */
    method AddChild(host: Host, p: Path, relPath: Path)
      requires Valid()
      modifies this
      ensures Valid() && State() == Listing.AddChild(old(State()), host, p, relPath)
    {
      if p == [] || relPath == [] {
        return;
      }
      if flat {
        topList := topList + [Handle(p)];
        return;
      }

      var relParent := Parent(relPath);
      var theList := FindList(p, relPath);
      ghost var b1 := State();

      // the leaf becomes the newest node; as a directory it is registered under `relPath`
      var id := |nodes|;
      var isDir := host.isDirectory(p);
      nodes := nodes + [Leaf(p, relPath, isDir)];
      if isDir {
        listMap := listMap[relPath := id];
      }
      ghost var b2 := State();
      assert b2 == b1.(nodes := b1.nodes + [Leaf(p, relPath, isDir)],
                       listMap := if isDir then b1.listMap[relPath := id] else b1.listMap);
      assert theList.Some? ==> theList.value == b2.listMap[relParent];
      AppendTo(theList, id);
      assert State() == Append(b2, relParent, id);
      assert State() == Listing.AddChild(old(State()), host, p, relPath);
    }

    /**
     * Finds the list for the parent of `relPath`, creating the lists of the
     * missing ancestors along the way; `None` stands for the top list.
     */
    method FindList(p: Path, relPath: Path) returns (theList: Option<nat>)
      requires Valid() && relPath != []
      modifies this
      ensures Valid()
      ensures State() == EnsureDirs(old(State()), Parent(relPath), Strip(p, |relPath|), |Parent(relPath)|)
      ensures theList.None? <==> Parent(relPath) == []
      ensures theList.Some? ==> Parent(relPath) in listMap && theList.value == listMap[Parent(relPath)]
    {
      var relParent := Parent(relPath);
      if relParent == [] {
        return None;
      }
      ghost var b0 := State();
      var tpathFull := Anchor(p, |relPath|);
      ghost var base := tpathFull;
      var tpath: Path := [];
      var k := 0;
      while k < |relParent|
        invariant 0 <= k <= |relParent|
        invariant tpath == relParent[..k] && tpathFull == base + tpath
        invariant State() == EnsureDirs(b0, relParent, base, k)
      {
        PrefixStep(relParent, k);
        AppendAssoc(base, tpath, [relParent[k]]);
        tpath := tpath + [relParent[k]];
        tpathFull := tpathFull + [relParent[k]];
        ParentOfPrefix(relParent, k + 1);
        if tpath !in listMap {
          // `tpath` has no node yet: create it and hook it under its parent
          AddDirectory(tpath, tpathFull);
        }
        k := k + 1;
      }
      assert relParent[..k] == relParent;
      theList := Some(listMap[relParent]);
    }

    /** The anchor: `p` with its last `n` components removed, found by taking the parent `n` times. */
    static method Anchor(p: Path, n: nat) returns (full: Path)
      requires 0 < n
      ensures |full| == if n <= |p| then |p| - n else 0
      ensures full == p[..|full|]
      ensures full == Strip(p, n)
    {
      full := Parent(p);
      var i := n - 1;
      while i > 0
        invariant 0 <= i < n
        invariant full == Strip(p, n - i)
      {
        full := Parent(full);
        i := i - 1;
      }
    }

    /** Creates the node of intermediate directory `t`, with handle `full`, and appends it to its parent's list. */
    method AddDirectory(t: Path, full: Path)
      requires Valid() && t != [] && t !in listMap
      requires Parent(t) == [] || Parent(t) in listMap
      modifies this
      ensures Valid() && State() == EnsureDir(old(State()), t, full)
    {
      var id := |nodes|;
      nodes := nodes + [Node(t, full, Some([]))];
      listMap := listMap[t := id];
      var tparent := Parent(t);
      if tparent == [] {
        topList := topList + [Entry(id)];
      } else {
        AppendTo(Some(listMap[tparent]), id);
      }
    }

    /** Appends node `id` to the top list (`None`) or to the children of node `owner` (`Some(owner)`). */
    method AppendTo(theList: Option<nat>, id: nat)
      requires theList.Some? ==> theList.value < |nodes| && nodes[theList.value].children.Some?
      modifies this
      ensures theList.None? ==> State() == old(State()).(top := old(topList) + [Entry(id)])
      ensures theList.Some? ==>
        var n := old(nodes)[theList.value];
        State() == old(State()).(nodes := old(nodes)[theList.value := n.(children := Some(n.children.value + [id]))])
    {
      match theList
      case None =>
        topList := topList + [Entry(id)];
      case Some(owner) =>
        nodes := nodes[owner := nodes[owner].(children := Some(nodes[owner].children.value + [id]))];
    }

    /** Hands over the top list and starts a new, empty one. */
    method AdoptKids() returns (l: seq<Item>)
      requires Valid()
      modifies this
      ensures Valid() && l == old(State()).top && State() == old(State()).(top := [])
    {
      l := topList;
      topList := [];
    }
  }
}

=== FILE: wrappers.dfy ===
/** Optional values and success-or-error results. */
module Wrappers {

  datatype Option<+T> = None | Some(value: T)

  datatype Result<+R, +E> = Success(value: R) | Failure(error: E)
}
